=== FILE: README.md ===
# Pull-to-refresh attacher: gesture recogniser and refresh state machine

A Dafny model of the core of ActionBar-PullToRefresh's `PullToRefreshAttacher`.
The attacher watches the touch events of registered scrollable views. When a
view is scrolled to the top and the user drags downwards, it turns the drag
into a header animation and, once the pull is far enough, a refresh. The
refresh calls the view's `OnRefreshListener`, shows the header and later
minimizes it. The host ends the refresh with `setRefreshing(false)`.

The model is functional. `State.Attacher` is an immutable record of the
attacher's fields. Every Java method of the core is a pure function that
returns a `Run`: the next state, the trace of calls made on collaborators
(`State.Effect`), and the exception thrown, if any. An exception
short-circuits what would have followed it (`State.Chain`). `Machine.Step`
handles one event and `Machine.Replay` handles a sequence of events. The
lemmas in `Machine` are about such sequences.

Modules follow the source's structure:

- `State` (state.dfy): the options, fields, effects and exceptions, plus `resetTouch`.
- `Registry` (registry.dfy): `addRefreshableView`, `removeRefreshableView`,
  `clearRefreshableViews`, `destroy`, `checkIfDestroyed`, `ViewParams`, and
  the weak references.
- `Refresh` (refresh.dfy): `setRefreshingInt`, `canRefresh`,
  `getScrollNeededForRefresh`, `startRefresh`, `reset`, `show/hideHeaderView`,
  `setEnabled` and the minimize runnable.
- `Gesture` (gesture.dfy): `onInterceptTouchEvent`, `onTouchEvent`,
  `onPullStarted`, `onPull`, `onPullEnded` and `checkScrollForRefresh`.
- `Machine` (machine.dfy): the events, the step function, the invariant and
  the lemmas about event sequences.
- `Scenarios` (scenarios.dfy): concrete gestures on a 400-pixel view with a
  200-pixel threshold.

Outside inputs become explicit parameters:

- An `Env` is passed with each event. It holds the delegate's
  `isReadyForPull` answer, the view height, and the booleans returned by
  `showHeaderView` and `hideHeaderView`. It also says whether a refresh
  listener called during the event calls `setRefreshComplete` from inside
  its `onRefreshStarted` callback (`listenerCompletes`).
- The built-in delegate lookup is a field of the `AddView` event.
- Garbage collection of a weakly held listener or view is an event
  (`ListenerCollected`, `ViewCollected`).
- The handler running the minimize callback is the `MinimizeTimerFires`
  event. `pendingMinimize` counts the queued callbacks.
- After `destroy` the header transformer is null. Any later transformer call
  throws `NullPointer`.

## Where the code's behaviour is surprising

- `reset` never calls `HeaderTransformer.onReset`, and its `fromTouch`
  argument is unused (library/src/uk/co/senab/actionbarpulltorefresh/library/PullToRefreshAttacher.java:667-678).
  The transformer's own documentation says `onReset` is called when the
  header should be reset (library/src/uk/co/senab/actionbarpulltorefresh/library/PullToRefreshAttacher.java:804-811).
  A drag that ends without a refresh only cancels the minimize callback and
  hides the header.
- `destroy` does not cancel a queued minimize callback. When that callback
  later runs, it calls the released transformer and throws
  (`Machine.DestroyKeepsMinimizeCallback`).
- A collected refresh listener does more than silence the callback. A DOWN
  on that view no longer records a drag origin
  (`Machine.CollectedListenerBlocksDrag`).
- A DOWN that records no origin does not clear the old one either (library/src/uk/co/senab/actionbarpulltorefresh/library/PullToRefreshAttacher.java:447-453).
  This happens when the view is not ready for a pull or its listener was
  collected. A MOVE is then measured from the origin of an earlier gesture,
  and it can start a drag (`Machine.StaleOriginSurvivesFailedDown`).
- A refresh listener may call `setRefreshComplete` inside its
  `onRefreshStarted` callback (library/src/uk/co/senab/actionbarpulltorefresh/library/PullToRefreshAttacher.java:686-689, :348-350). That inner call
  resets the refresh: it cancels the minimize callback and hides the header.
  Then `startRefresh` carries on. It calls `onRefreshStarted` on the
  transformer, shows the header and queues a minimize callback. The
  attacher is left not refreshing, with the header shown and a callback
  queued (`Scenarios.CompletingListenerBreaksInv`). When that callback runs,
  it minimizes the header of a refresh that is over.
- On release, refresh-on-up compares the last recorded `mLastMotionY` with
  the threshold. The y of the UP sample is not used
  (`Machine.ReleaseIgnoresPosition`).
- `onPullStarted` sets only `mPullBeginY`. At drag start `mLastMotionY` is
  whatever was last stored there, and the first move of a drag is measured
  from it. That is usually the -1 of the last `resetTouch`, or 0 in a new
  attacher. It can also be a stale y: when a listener completes its refresh
  inside its callback during a drag move, `onTouchEvent` stores that move's
  y after the inner `resetTouch` (`Scenarios.Orphaned` has `lastY` 335).
- After `onPull` requests a refresh, `onTouchEvent` still sets
  `mLastMotionY` to the move's y when the move is downward. This overwrites
  the -1 that `resetTouch` had just stored. An upward move within the slop
  leaves that -1 in place.
- Posting a minimize callback does not cancel an earlier one. When no
  listener completes its refresh inside its callback, the invariant
  `Machine.Inv` shows that no earlier callback is queued at that point
  (`pendingMinimize <= 1`).
- A touch gesture that arrives while refreshing goes down the intercept
  path and changes nothing there. Its DOWN still sets
  `mHandlingTouchEventFromDown` (library/src/uk/co/senab/actionbarpulltorefresh/library/PullToRefreshAttacher.java:487-489), and its UP does not reset
  the touch state. When the attacher is enabled, not refreshing and the
  view is registered, UP and CANCEL reset the touch state. When it is
  disabled or the view is unregistered, every sample is ignored and nothing
  is reset (library/src/uk/co/senab/actionbarpulltorefresh/library/PullToRefreshAttacher.java:476-484).
- After `destroy`, touch events are ignored because the registry is empty.
  The registry operations and `setRefreshing` throw `IllegalState`.
  `setEnabled(false)` during a refresh throws `NullPointer` while hiding the
  header.

## Model

| member | source | states |
|---|---|---|
| State.DefaultOptions | library/src/uk/co/senab/actionbarpulltorefresh/library/PullToRefreshAttacher.java:50-54 | default scroll distance 0.5, refresh-on-up off, minimize on after 1000 ms |
| State.NewAttacher | library/src/uk/co/senab/actionbarpulltorefresh/library/PullToRefreshAttacher.java:69-84 | a new attacher is enabled, idle, not dragging, with no views, no drag origin and no queued callback |
| State.ResetTouch | library/src/uk/co/senab/actionbarpulltorefresh/library/PullToRefreshAttacher.java:543-547 | ends the gesture and clears the origin, touching nothing outside the gesture fields |
| Registry.CheckIfDestroyed | library/src/uk/co/senab/actionbarpulltorefresh/library/PullToRefreshAttacher.java:708-712 | throws IllegalState exactly when destroyed, changing nothing |
| Registry.ListenerFor | library/src/uk/co/senab/actionbarpulltorefresh/library/PullToRefreshAttacher.java:643-651 | a listener exists only for a registered view whose weak reference is still set |
| Registry.AddRefreshableView | library/src/uk/co/senab/actionbarpulltorefresh/library/PullToRefreshAttacher.java:229-257 | throws when destroyed, ignores a null view, throws on a null listener or when no delegate is given or built in; a live attacher given a view, a listener and some delegate always succeeds, replacing only that view's entry and preferring the given delegate |
| Registry.Register | library/src/uk/co/senab/actionbarpulltorefresh/library/PullToRefreshAttacher.java:253 | the new entry replaces any earlier one for that view; the other entries and all other fields stay the same |
| Registry.RemoveRefreshableView | library/src/uk/co/senab/actionbarpulltorefresh/library/PullToRefreshAttacher.java:265-271 | throws when destroyed; otherwise drops only that view, and an unknown view changes nothing |
| Registry.ClearRefreshableViews | library/src/uk/co/senab/actionbarpulltorefresh/library/PullToRefreshAttacher.java:276-283 | throws when destroyed; otherwise empties the registry and nothing else |
| Registry.Destroy | library/src/uk/co/senab/actionbarpulltorefresh/library/PullToRefreshAttacher.java:359-374 | a second call does nothing; the first empties the registry, drops the header listener and sets the destroyed flag, and changes nothing else: the options, the coordinates, the refreshing flag and the queued minimize callback stay |
| Registry.ListenerGone | library/src/uk/co/senab/actionbarpulltorefresh/library/PullToRefreshAttacher.java:963-974 | a collected listener reads as absent for every view that held it; the keys and delegates stay the same |
| Registry.ViewGone | library/src/uk/co/senab/actionbarpulltorefresh/library/PullToRefreshAttacher.java:76 | a collected view's entry disappears without a trace and the other entries stay the same |
| Registry.RemoveUndoesAdd | library/src/uk/co/senab/actionbarpulltorefresh/library/PullToRefreshAttacher.java:229-271 | removing a view right after a successful add gives the original registry minus that view |
| Registry.DestroyIdempotent | library/src/uk/co/senab/actionbarpulltorefresh/library/PullToRefreshAttacher.java:359-360 | destroying twice equals destroying once |
| Registry.RegistryClosedAfterDestroy | library/src/uk/co/senab/actionbarpulltorefresh/library/PullToRefreshAttacher.java:708-712 | after destroy, add, remove and clear all throw IllegalState and change nothing |
| Refresh.Threshold | library/src/uk/co/senab/actionbarpulltorefresh/library/PullToRefreshAttacher.java:663-665 | the refresh distance (height times scroll distance) is positive |
| Refresh.TransformerCall | library/src/uk/co/senab/actionbarpulltorefresh/library/PullToRefreshAttacher.java:371 | a transformer call after destroy throws NullPointer and records nothing |
| Refresh.ShowHeaderView | library/src/uk/co/senab/actionbarpulltorefresh/library/PullToRefreshAttacher.java:585-592 | exactly one transformer call, then the header observer hears VISIBLE if and only if the transformer reported a change and an observer is set; nothing else |
| Refresh.HideHeaderView | library/src/uk/co/senab/actionbarpulltorefresh/library/PullToRefreshAttacher.java:594-601 | exactly one transformer call, then the header observer hears HIDDEN if and only if the transformer reported a change and an observer is set; nothing else |
| Refresh.MinimizeDelay | library/src/uk/co/senab/actionbarpulltorefresh/library/PullToRefreshAttacher.java:699-705 | a positive delay is used as is; any other delay means an immediate post |
| Refresh.Reset | library/src/uk/co/senab/actionbarpulltorefresh/library/PullToRefreshAttacher.java:667-678 | clears refreshing, cancels the minimize callback when minimizing is on, and hides the header; it makes no other transformer call (no onReset) and no listener call |
| Refresh.CanRefresh | library/src/uk/co/senab/actionbarpulltorefresh/library/PullToRefreshAttacher.java:659-661 | a refresh may start iff none is running and, for a touch request, the view's listener is reachable (a predicate; SetRefreshingInt states what it decides) |
| Refresh.StartRefresh | library/src/uk/co/senab/actionbarpulltorefresh/library/PullToRefreshAttacher.java:680-706 | the listener call, made exactly when the request is from touch and the listener is live, comes first in the trace; onRefreshStarted and the header show always follow; the result is refreshing, and the header is never hidden, unless that listener completes the refresh inside its callback, in which case the refresh is reset (hidden, callback cancelled) and then announced and shown anyway; a minimize callback is queued iff minimizing is on |
| Refresh.CompleteRefresh | library/src/uk/co/senab/actionbarpulltorefresh/library/PullToRefreshAttacher.java:348-350 | setRefreshComplete on a refreshing attacher throws when destroyed; otherwise it resets the gesture and the refresh, hides the header and cancels the minimize callback, without a listener call |
| Refresh.StartCompletedInside | library/src/uk/co/senab/actionbarpulltorefresh/library/PullToRefreshAttacher.java:680-706 | a start whose listener completes the refresh inside its callback calls the listener first, ends not refreshing, hides, announces and shows the header, and leaves exactly one minimize callback queued when minimizing |
| Refresh.AnnounceRefresh | library/src/uk/co/senab/actionbarpulltorefresh/library/PullToRefreshAttacher.java:692-705 | after the listener call, onRefreshStarted comes first, then the header is shown (never hidden), and the minimize callback, queued iff minimizing is on, comes last; no listener call |
| Refresh.RefreshListenerCall | library/src/uk/co/senab/actionbarpulltorefresh/library/PullToRefreshAttacher.java:684-690 | the listener is called with the originating view only for a touch request whose listener is reachable |
| Refresh.QueueMinimize | library/src/uk/co/senab/actionbarpulltorefresh/library/PullToRefreshAttacher.java:698-705 | adds one queued callback with the configured delay iff minimizing is on |
| Refresh.SetRefreshingInt | library/src/uk/co/senab/actionbarpulltorefresh/library/PullToRefreshAttacher.java:625-641 | throws when destroyed; asking for the current state does nothing at all; otherwise only the gesture, the refreshing flag and the minimize callback change: the gesture is reset and either a start (refresh asked for, and not a touch request without a listener) is announced, shown and its callback queued, or the refresh ends with the callback cancelled and the header hidden; the result is refreshing iff it started and its listener did not complete it inside the callback; the listener is called at most once, only for a touch start |
| Refresh.RunMinimizeCallback | library/src/uk/co/senab/actionbarpulltorefresh/library/PullToRefreshAttacher.java:981-991 | never changes refreshing; with nothing queued it does nothing; otherwise it dequeues one callback and reports MINIMIZED to the observer iff one is set, or throws after destroy |
| Refresh.ChangeRefreshing | library/src/uk/co/senab/actionbarpulltorefresh/library/PullToRefreshAttacher.java:635-640 | on a live attacher whose gesture was just reset, a change of the refreshing flag touches only the flag and the minimize callback: a start is announced, shown and its callback queued, and any other change hides the header and cancels the callback |
| Refresh.SetEnabled | library/src/uk/co/senab/actionbarpulltorefresh/library/PullToRefreshAttacher.java:328-340 | enabling only sets the flag; disabling resets the gesture and ends a running refresh without a listener call, hiding the header and cancelling its minimize callback, and changes nothing else |
| Refresh.ResetCancelsStart | library/src/uk/co/senab/actionbarpulltorefresh/library/PullToRefreshAttacher.java:667-706 | a reset right after a start returns to the idle state with no queued callback (with the gesture also reset when the listener completed the refresh inside its callback) |
| Gesture.OnPullStarted | library/src/uk/co/senab/actionbarpulltorefresh/library/PullToRefreshAttacher.java:549-555 | makes exactly the calls of showing the header and records only the pull's start y |
| Gesture.OnPull | library/src/uk/co/senab/actionbarpulltorefresh/library/PullToRefreshAttacher.java:557-574 | below the threshold reports a fraction f < 1 with f times threshold equal to the pull distance; at or past it, refresh-on-up only calls onReleaseToRefresh, otherwise a touch refresh is requested |
| Gesture.PulledFractionGrows | library/src/uk/co/senab/actionbarpulltorefresh/library/PullToRefreshAttacher.java:562-566 | a longer pull reports a larger or equal fraction |
| Gesture.OnPullEnded | library/src/uk/co/senab/actionbarpulltorefresh/library/PullToRefreshAttacher.java:576-583 | a pull that ends while idle resets; during a refresh it does nothing |
| Gesture.CheckScrollForRefresh | library/src/uk/co/senab/actionbarpulltorefresh/library/PullToRefreshAttacher.java:615-623 | only a refresh-on-up drag released at least the threshold below its start does anything; then, on a live idle attacher, the gesture is reset and the view's listener is called once and the refresh started when the listener is reachable (refreshing unless it completes inside its callback), or the header is hidden when it is not; only the gesture, the refreshing flag and the minimize callback change, one more callback is queued after a start (the only one after a completion inside the callback) and none is left after a request without a listener; it throws IllegalState after destroy |
| Gesture.InterceptTouchEvent | library/src/uk/co/senab/actionbarpulltorefresh/library/PullToRefreshAttacher.java:409-467 | ignores events when disabled, refreshing or unregistered; a drag starts iff a MOVE after a positive origin has yDiff > xDiff and yDiff > slop; yDiff < -slop abandons the origin; any other MOVE, including every MOVE during a drag, changes nothing, so the origin survives a small move; DOWN records the origin iff the listener is live and the view is ready; UP/CANCEL reset; the drag start makes exactly the calls of showing the header; returns the drag flag |
| Gesture.TouchEvent | library/src/uk/co/senab/actionbarpulltorefresh/library/PullToRefreshAttacher.java:469-541 | disabled or unregistered events change nothing and return false; a DOWN puts the gesture on the intercept path until a drag starts, and a DOWN during a drag only marks the gesture as seen from DOWN; without it a MOVE cannot start a drag; drag moves go to DragMove, releases to Release; at most one listener call |
| Gesture.DragMove | library/src/uk/co/senab/actionbarpulltorefresh/library/PullToRefreshAttacher.java:505-525 | a move up by more than the slop ends the pull as onPullEnded does (the header hidden, the minimize callback cancelled, no listener call) and resets the gesture; otherwise it pulls: below the threshold or when armed for release the drag goes on with only lastY changed, by a downward move; past it in default mode the state is that of the touch refresh request, with lastY then set by a downward move |
| Gesture.PullMove | library/src/uk/co/senab/actionbarpulltorefresh/library/PullToRefreshAttacher.java:515-520 | the pull branch on its own: onPull's calls and exception, and the same state outcomes as in DragMove |
| Gesture.Release | library/src/uk/co/senab/actionbarpulltorefresh/library/PullToRefreshAttacher.java:529-536 | a release past the threshold in refresh-on-up mode requests a touch refresh (listener once and refreshing, unless it completes inside its callback; hidden when there is no listener), changing only the gesture, the refreshing flag and the callback count, with the callback posted after a start; otherwise a drag ends as onPullEnded does, changing only the gesture, the refreshing flag and the callback count; the gesture is reset in every case and the views, enabled flag and options never change |
| Machine.NewAttacherInv | library/src/uk/co/senab/actionbarpulltorefresh/library/PullToRefreshAttacher.java:69-84 | a new attacher satisfies the invariant |
| Machine.Step | library/src/uk/co/senab/actionbarpulltorefresh/library/PullToRefreshAttacher.java:302-407 | the dispatcher from an event to the public entry point it stands for (setRefreshing and setRefreshComplete, setEnabled, the registry calls, destroy, setHeaderViewListener, onTouch, onInterceptTouchEvent, the minimize runnable); its contract says only a touch calls a refresh listener, at most once and only when no refresh ran; its other properties are the Machine lemmas |
| Machine.StepPreservesInv | library/src/uk/co/senab/actionbarpulltorefresh/library/PullToRefreshAttacher.java:328-706 | every event during which no listener completes its refresh inside its callback keeps the invariant: at most one queued minimize callback, and only while refreshing; no drag while refreshing or disabled; no views after destroy |
| Machine.TouchPreservesInv | library/src/uk/co/senab/actionbarpulltorefresh/library/PullToRefreshAttacher.java:469-541 | a touch event keeps the invariant when no listener completes its refresh inside its callback |
| Machine.InterceptPreservesInv | library/src/uk/co/senab/actionbarpulltorefresh/library/PullToRefreshAttacher.java:409-467 | an intercept call keeps the invariant: a drag starts only while enabled and idle |
| Machine.EnablePreservesInv | library/src/uk/co/senab/actionbarpulltorefresh/library/PullToRefreshAttacher.java:328-340 | enabling or disabling keeps the invariant; disabling ends the drag and any refresh with its minimize callback |
| Machine.SetRefreshingPreservesInv | library/src/uk/co/senab/actionbarpulltorefresh/library/PullToRefreshAttacher.java:625-641 | a refreshing change keeps the invariant unless its listener completes the refresh inside its callback |
| Machine.DragMovePreservesInv | library/src/uk/co/senab/actionbarpulltorefresh/library/PullToRefreshAttacher.java:505-525 | a drag move keeps the invariant when no listener completes its refresh inside its callback |
| Machine.ReleasePreservesInv | library/src/uk/co/senab/actionbarpulltorefresh/library/PullToRefreshAttacher.java:529-536 | a release keeps the invariant when no listener completes its refresh inside its callback |
| Machine.ReplayPreservesInv | library/src/uk/co/senab/actionbarpulltorefresh/library/PullToRefreshAttacher.java:667-706 | over any event sequence in which no listener completes its refresh inside its callback, a queued minimize callback implies refreshing, and at most one is queued |
| Machine.StepRefreshCallbacks | library/src/uk/co/senab/actionbarpulltorefresh/library/PullToRefreshAttacher.java:659-661 | an event that neither ends a refresh nor has its listener complete one inside its callback never clears refreshing, and calls the listener at most once, only when idle before and refreshing after |
| Machine.AtMostOneRefreshCallback | library/src/uk/co/senab/actionbarpulltorefresh/library/PullToRefreshAttacher.java:625-641 | until the host or the listener itself ends the refresh, any event sequence calls the refresh listener at most once, and never if a refresh was already running |
| Machine.StepWithoutOrigin | library/src/uk/co/senab/actionbarpulltorefresh/library/PullToRefreshAttacher.java:433-453 | an event other than a DOWN that records an origin starts no drag, records no origin and calls no listener |
| Machine.TouchWithoutOrigin | library/src/uk/co/senab/actionbarpulltorefresh/library/PullToRefreshAttacher.java:469-541 | a touch sample, when it is not a DOWN that records an origin and none is recorded, starts no drag, records no origin and calls no listener |
| Machine.NoDragWithoutOrigin | library/src/uk/co/senab/actionbarpulltorefresh/library/PullToRefreshAttacher.java:433-453 | a sequence in which no DOWN records an origin (not ready, listener collected, refreshing, disabled, unregistered), starting with no origin, never drags and never calls the listener |
| Machine.NoDragWithoutReadyDown | library/src/uk/co/senab/actionbarpulltorefresh/library/PullToRefreshAttacher.java:447-453 | if every DOWN finds its view not ready for a pull, no drag starts and the listener is never called |
| Machine.StaleOriginSurvivesFailedDown | library/src/uk/co/senab/actionbarpulltorefresh/library/PullToRefreshAttacher.java:447-453 | a DOWN that fails the readiness check keeps the earlier origin, and a MOVE measured from it starts a drag |
| Machine.StepAfterDestroy | library/src/uk/co/senab/actionbarpulltorefresh/library/PullToRefreshAttacher.java:359-374 | after destroy every event keeps the attacher destroyed and empty; refresh and registry requests throw IllegalState |
| Machine.DestroyIsFinal | library/src/uk/co/senab/actionbarpulltorefresh/library/PullToRefreshAttacher.java:708-712 | once destroyed, no event sequence revives the registry or calls the listener |
| Machine.DestroyKeepsMinimizeCallback | library/src/uk/co/senab/actionbarpulltorefresh/library/PullToRefreshAttacher.java:359-374 | destroy during a refresh leaves its minimize callback queued, and running it throws NullPointer |
| Machine.EndingRefreshCancelsMinimize | library/src/uk/co/senab/actionbarpulltorefresh/library/PullToRefreshAttacher.java:671-674 | after setRefreshing(false) or setEnabled(false) ends a refresh, the minimize callback can no longer fire |
| Machine.CollectedListenerBlocksDrag | library/src/uk/co/senab/actionbarpulltorefresh/library/PullToRefreshAttacher.java:447-453 | once a view's listener is collected, a DOWN on it records no new drag origin and makes no call; any earlier origin stays |
| Machine.ReleaseIgnoresPosition | library/src/uk/co/senab/actionbarpulltorefresh/library/PullToRefreshAttacher.java:615-617 | the outcome of UP or CANCEL does not depend on the release sample's coordinates |
| Scenarios.AttachStep | library/src/uk/co/senab/actionbarpulltorefresh/library/PullToRefreshAttacher.java:253 | registering the view gives the scenario's start state |
| Scenarios.TouchRefreshStarts | library/src/uk/co/senab/actionbarpulltorefresh/library/PullToRefreshAttacher.java:680-706 | a touch refresh on the registered view calls its listener, then onRefreshStarted, shows the header and posts the minimize callback with the 1000 ms delay |
| Scenarios.TouchRefreshCompletesInside | library/src/uk/co/senab/actionbarpulltorefresh/library/PullToRefreshAttacher.java:680-706 | with a listener that completes the refresh inside its callback, the calls are: listener, cancel, hide, onRefreshStarted, show, post; the attacher ends not refreshing with one callback queued |
| Scenarios.DownStep | library/src/uk/co/senab/actionbarpulltorefresh/library/PullToRefreshAttacher.java:486-496 | DOWN at y=100 records the origin and enters the intercept path |
| Scenarios.DragStartStep | library/src/uk/co/senab/actionbarpulltorefresh/library/PullToRefreshAttacher.java:437-439 | a move to 130 (30 > slop 10) starts the drag and shows the header |
| Scenarios.PullStep | library/src/uk/co/senab/actionbarpulltorefresh/library/PullToRefreshAttacher.java:565-566 | a move to 300 reports a pulled fraction of 0.85 |
| Scenarios.ThresholdStep | library/src/uk/co/senab/actionbarpulltorefresh/library/PullToRefreshAttacher.java:568-572 | a move to 335 (205 >= 200) starts the refresh once |
| Scenarios.CompletingStep | library/src/uk/co/senab/actionbarpulltorefresh/library/PullToRefreshAttacher.java:568-572 | the same move with a listener that completes the refresh inside its callback leaves the attacher not refreshing with a callback queued |
| Scenarios.CompletingPull | library/src/uk/co/senab/actionbarpulltorefresh/library/PullToRefreshAttacher.java:515-520 | the pull branch of that move gives the re-entrant trace and leaves lastY at 335 |
| Scenarios.CompletingListenerBreaksInv | library/src/uk/co/senab/actionbarpulltorefresh/library/PullToRefreshAttacher.java:686-705 | that move leads from a state satisfying the invariant to one violating it |
| Scenarios.OrphanedCallbackFires | library/src/uk/co/senab/actionbarpulltorefresh/library/PullToRefreshAttacher.java:981-991 | in that state the queued callback still minimizes the header |
| Scenarios.ArmStep | library/src/uk/co/senab/actionbarpulltorefresh/library/PullToRefreshAttacher.java:568-570 | in refresh-on-up mode the same move only calls onReleaseToRefresh |
| Scenarios.ReleaseStep | library/src/uk/co/senab/actionbarpulltorefresh/library/PullToRefreshAttacher.java:615-620 | the UP that follows starts the refresh |
| Scenarios.ReplayCons | library/src/uk/co/senab/actionbarpulltorefresh/library/PullToRefreshAttacher.java:469-541 | a sequence's effects are its first event's effects followed by those of the rest, from the state the first event leaves |
| Scenarios.DownReplay | library/src/uk/co/senab/actionbarpulltorefresh/library/PullToRefreshAttacher.java:486-496 | a DOWN first in a sequence adds no call |
| Scenarios.DragStartReplay | library/src/uk/co/senab/actionbarpulltorefresh/library/PullToRefreshAttacher.java:437-439 | the drag-start move first in a sequence adds only the header show |
| Scenarios.PullReplay | library/src/uk/co/senab/actionbarpulltorefresh/library/PullToRefreshAttacher.java:562-566 | the 85% pull first in a sequence adds only the pulled fraction |
| Scenarios.PullPrefix | library/src/uk/co/senab/actionbarpulltorefresh/library/PullToRefreshAttacher.java:433-566 | DOWN, drag start and pull, in either mode, show the header and report 0.85 before whatever follows |
| Scenarios.ThresholdReplay | library/src/uk/co/senab/actionbarpulltorefresh/library/PullToRefreshAttacher.java:568-572 | the move past the threshold in default mode ends the drag and starts the refresh |
| Scenarios.ReleaseReplay | library/src/uk/co/senab/actionbarpulltorefresh/library/PullToRefreshAttacher.java:529-536 | the UP after an armed pull starts the refresh and resets the gesture |
| Scenarios.ArmAndReleaseReplay | library/src/uk/co/senab/actionbarpulltorefresh/library/PullToRefreshAttacher.java:529-574 | in refresh-on-up mode the move past the threshold only arms, and the UP then starts the refresh |
| Scenarios.RefreshedCallsOnce | library/src/uk/co/senab/actionbarpulltorefresh/library/PullToRefreshAttacher.java:684-690 | the calls of a touch refresh contain exactly one listener call |
| Scenarios.PullPastThresholdRefreshesOnce | library/src/uk/co/senab/actionbarpulltorefresh/library/PullToRefreshAttacher.java:505-574 | the whole default-mode gesture emits exactly the expected calls, with one listener call |
| Scenarios.ReleaseStartsArmedRefresh | library/src/uk/co/senab/actionbarpulltorefresh/library/PullToRefreshAttacher.java:529-536 | the whole refresh-on-up gesture arms on the move and refreshes on UP |
| Scenarios.SidewaysMoveStartsNoDrag | library/src/uk/co/senab/actionbarpulltorefresh/library/PullToRefreshAttacher.java:437 | a move with xDiff >= yDiff never starts a drag |
| Scenarios.CompletionCancelsMinimize | library/src/uk/co/senab/actionbarpulltorefresh/library/PullToRefreshAttacher.java:667-678 | completing a refresh cancels, hides, and leaves no callback to fire |
| Scenarios.StopWhileIdleIsSilent | library/src/uk/co/senab/actionbarpulltorefresh/library/PullToRefreshAttacher.java:630-632 | setRefreshing(false) while idle makes no call and changes nothing |

## Left out

- Header inflation, decor-view and window attachment, and the repost-until-window-token loop (:147-180, :714-735): Android window plumbing.
- `EnvironmentDelegate`, the `ActivityListener` lifecycle hooks, `onConfigurationChanged` and `onViewCreated` (:163-166, :291-293, :889-907, :993-1041): platform lifecycle glue.
- `view.setOnTouchListener` calls and the package-private `setTouchListener` flag of `addRefreshableView`: the public overloads always install the listener, and a `Touch` event stands for it firing.
- The return value of `onTouch` (always false, :401-407) and of `checkScrollForRefresh`: neither affects the state.
- Handler timing: the minimize callback is a queued count and a "fires" event, with no clock.
- Garbage collection: `WeakHashMap` and `WeakReference` clearing happen only when the explicit events say so.
- `InstanceCreationUtils.getBuiltInViewDelegate`, `DefaultHeaderTransformer` and the concrete view delegates are not part of this model. Their answers are event parameters.
- Floating point: coordinates are `real`, and the view height and scroll distance are positive reals. A view of height 0 (a float division by zero in `onPull`) and NaN or infinite coordinates are not modelled.
- Machine.StepPreservesInv: assumes no refresh listener calls `setRefreshComplete` from inside `onRefreshStarted` (:686-689); such a listener leaves a minimize callback queued while not refreshing, which breaks `Machine.Inv` (`Scenarios.CompletingListenerBreaksInv`).
- Machine.TouchPreservesInv: assumes no listener completes its refresh inside its callback, for the same reason.
- Machine.SetRefreshingPreservesInv: assumes the listener of a touch start does not complete the refresh inside its callback, for the same reason.
- Machine.DragMovePreservesInv: assumes no listener completes its refresh inside its callback, for the same reason.
- Machine.ReleasePreservesInv: assumes no listener completes its refresh inside its callback, for the same reason.
- Machine.ReplayPreservesInv: assumes no touch event of the sequence has its listener complete the refresh inside its callback, for the same reason.
- Machine.StepRefreshCallbacks: assumes no listener completes its refresh inside its callback; such a listener ends the refresh, so a later gesture may call it again.
- Machine.AtMostOneRefreshCallback: assumes no listener completes its refresh inside its callback, for the same reason.
- Re-entrant calls from collaborator callbacks other than `setRefreshComplete` from `onRefreshStarted` are not modelled. Examples are `setRefreshing(true)`, `setEnabled`, `destroy` or a registry change made from a listener, transformer or header observer callback.
- DEBUG logging and the plain getters (`isRefreshing`, `isEnabled`, `getHeaderView`, `getHeaderTransformer`).

=== FILE: gesture.dfy ===
/**
  The gesture recogniser: how the DOWN, MOVE, UP and CANCEL samples of a
  registered view start a drag, report pull progress, end the pull and request
  a refresh. `InterceptTouchEvent` decides when a drag starts;
  `TouchEvent` routes a gesture that began with DOWN through it until then and
  afterwards follows the drag.
*/
module Gesture {
  import opened State
  import opened Registry
  import opened Refresh

  datatype Touched = Touched(run: Run, result: bool)

  /** The slop as a coordinate distance. */
  function Slop(a: Attacher): (s: real)
    ensures s >= 0.0
  {
    a.touchSlop as real
  }

  /** The guard shared by both entry points: enabled, idle and registered. */
  predicate Listening(a: Attacher, view: ViewId)
  {
    a.enabled && !a.refreshing && view in a.views
  }

  /** A DOWN records a drag origin exactly when this holds. */
  predicate RecordsOrigin(a: Attacher, view: ViewId, env: Env)
  {
    Listening(a, view) && a.views[view].listener.Some? && env.readyForPull
  }

  /**
    A MOVE starts a drag exactly when this holds: a positive origin was
    recorded, and the move went down further than it went right and further
    than the slop.
  */
  predicate StartsDrag(a: Attacher, view: ViewId, s: Sample)
  {
    && Listening(a, view) && s.action == Move && !a.dragging && a.initialY > 0.0
    && s.y - a.initialY > s.x - a.initialX
    && s.y - a.initialY > Slop(a)
  }

  /** A MOVE abandons the drag candidate exactly when this holds. */
  predicate AbandonsCandidate(a: Attacher, view: ViewId, s: Sample)
  {
    && Listening(a, view) && s.action == Move && !a.dragging && a.initialY > 0.0
    && !(s.y - a.initialY > s.x - a.initialX && s.y - a.initialY > Slop(a))
    && s.y - a.initialY < -Slop(a)
  }

  /** The drag has started: show the header and remember where the pull begins. */
  function OnPullStarted(a: Attacher, y: real, env: Env): (r: Run)
    ensures r.thrown.None? <==> !a.destroyed
    ensures r.thrown.None? ==> r.a == a.(pullBeginY := y)
    ensures r.thrown.Some? ==> r.a == a
    ensures ShowHeader in r.trace <==> !a.destroyed
    ensures r.trace == ShowHeaderView(a, env).trace
    ensures ListenerCalls(r.trace) == 0
  {
    var shown := ShowHeaderView(a, env);
    Chain(shown, Done(a.(pullBeginY := y)))
  }

  /**
    The drag moved to `y`. Below the threshold the transformer hears the pulled
    fraction, which is then below one; at or past it the transformer is told to
    wait for release (refresh-on-up) or a touch refresh is requested.
  */
  function OnPull(a: Attacher, view: ViewId, y: real, env: Env): (r: Run)
    ensures var len := y - a.pullBeginY;
            var t := Threshold(a, env);
            && (len < t && !a.destroyed ==>
                  && r.a == a && r.thrown.None? && |r.trace| == 1 && r.trace[0].Pulled?
                  && r.trace[0].fraction < 1.0 && r.trace[0].fraction * t == len)
            && (len >= t && a.options.refreshOnUp && !a.destroyed ==>
                  r == Done(a).(trace := [ReleaseToRefresh]))
            && (len >= t && !a.options.refreshOnUp ==>
                  r == SetRefreshingInt(a, Some(view), true, true, env))
            && (len < t || a.options.refreshOnUp ==> ListenerCalls(r.trace) == 0 && r.a == a)
  {
    var t := Threshold(a, env);
    var len := y - a.pullBeginY;
    if len < t then
      PulledBelowOne(len, t);
      TransformerCall(a, Pulled(len / t))
    else if a.options.refreshOnUp then TransformerCall(a, ReleaseToRefresh)
    else SetRefreshingInt(a, Some(view), true, true, env)
  }

  lemma PulledBelowOne(len: real, t: real)
    requires t > 0.0 && len < t
    ensures len / t < 1.0 && (len / t) * t == len
  {
  }

  /** Pulling further reports a larger fraction. */
  lemma PulledFractionGrows(a: Attacher, view: ViewId, y1: real, y2: real, env: Env)
    requires !a.destroyed && y1 <= y2 && y2 - a.pullBeginY < Threshold(a, env)
    ensures OnPull(a, view, y1, env).trace[0].fraction <= OnPull(a, view, y2, env).trace[0].fraction
  {
    var t := Threshold(a, env);
    var f1 := OnPull(a, view, y1, env).trace[0].fraction;
    var f2 := OnPull(a, view, y2, env).trace[0].fraction;
    ScaledOrder(f1, f2, t, y1 - a.pullBeginY, y2 - a.pullBeginY);
  }

  /** Fractions of the same positive whole are ordered as their parts are. */
  lemma ScaledOrder(f1: real, f2: real, t: real, l1: real, l2: real)
    requires t > 0.0 && f1 * t == l1 && f2 * t == l2 && l1 <= l2
    ensures f1 <= f2
  {
  }

  /** The drag ended without a refresh running: end the refresh UI. */
  function OnPullEnded(a: Attacher, env: Env): (r: Run)
    ensures a.refreshing ==> r == Done(a)
    ensures !a.refreshing ==> r == Reset(a, env)
    ensures ListenerCalls(r.trace) == 0 && !r.a.refreshing == !a.refreshing
  {
    if !a.refreshing then Reset(a, env) else Done(a)
  }

  /**
    On release in refresh-on-up mode, a drag whose last recorded y is at
    least the threshold below where the pull began requests a touch refresh:
    it starts when the view's listener is still reachable and otherwise the
    refresh UI is reset.
  */
  function CheckScrollForRefresh(a: Attacher, view: ViewId, env: Env): (r: Run)
    ensures !ReleaseRefreshes(a, env) ==> r == Done(a)
    ensures ReleaseRefreshes(a, env) && a.destroyed ==> r == Run(a, [], Some(IllegalState))
    ensures ReleaseRefreshes(a, env) && !a.destroyed && a.refreshing ==> r == Done(a)
    ensures ReleaseRefreshes(a, env) && !a.destroyed && !a.refreshing ==>
              && r.thrown.None? && GestureReset(r.a) && r.a.views == a.views
              && r.a.refreshing == (ListenerFor(a, Some(view)).Some? && !env.listenerCompletes)
              && (ListenerFor(a, Some(view)).Some? ==> RefreshStarted in r.trace && ShowHeader in r.trace)
              && (HideHeader in r.trace <==> ListenerFor(a, Some(view)).None? || env.listenerCompletes)
    // that request touches only the gesture, the refreshing flag and the minimize callback
    ensures ReleaseRefreshes(a, env) && !a.destroyed && !a.refreshing ==>
              && r.a == ResetTouch(a).(refreshing := r.a.refreshing, pendingMinimize := r.a.pendingMinimize)
              && (a.options.refreshMinimize ==> r.a.pendingMinimize == MinimizeAfterRequest(a, view, env))
              && (a.options.refreshMinimize && ListenerFor(a, Some(view)).Some? ==>
                    PostMinimize(MinimizeDelay(a.options)) in r.trace)
    ensures ListenerCalls(r.trace) ==
              (if ReleaseRefreshes(a, env) && !a.destroyed && !a.refreshing && ListenerFor(a, Some(view)).Some? then 1 else 0)
  {
    if ReleaseRefreshes(a, env) then SetRefreshingInt(a, Some(view), true, true, env)
    else Done(a)
  }

  predicate ReleaseRefreshes(a: Attacher, env: Env)
  {
    a.dragging && a.options.refreshOnUp && a.lastY - a.pullBeginY >= Threshold(a, env)
  }

  /**
    The queued minimize callbacks after a touch refresh request on a live,
    idle attacher with minimizing on: a start queues one more (the only one
    when the listener completed the refresh inside its callback, which
    cancelled the rest); a request without a listener ends the refresh
    and cancels them all.
  */
  function MinimizeAfterRequest(a: Attacher, view: ViewId, env: Env): nat
  {
    if ListenerFor(a, Some(view)).None? then 0
    else if env.listenerCompletes then 1
    else a.pendingMinimize + 1
  }

  /**
    Decides whether a gesture becomes a drag. Returns whether the attacher is
    dragging afterwards.
  */
  function InterceptTouchEvent(a: Attacher, view: ViewId, s: Sample, env: Env): (r: Touched)
    ensures !Listening(a, view) ==> r == Touched(Done(a), false)
    ensures Listening(a, view) && r.run.thrown.None? ==> r.result == r.run.a.dragging
    ensures !a.dragging ==> (r.run.a.dragging <==> StartsDrag(a, view, s))
    ensures StartsDrag(a, view, s) ==>
              && (ShowHeader in r.run.trace <==> !a.destroyed)
              && (r.run.thrown.None? ==> r.run.a == a.(dragging := true, pullBeginY := s.y))
              && r.run.trace == ShowHeaderView(a, env).trace
    ensures AbandonsCandidate(a, view, s) ==> r.run == Done(ResetTouch(a))
    // any other MOVE, including a small one after an origin and any during a drag, changes nothing
    ensures Listening(a, view) && s.action == Move && !StartsDrag(a, view, s) && !AbandonsCandidate(a, view, s) ==>
              r.run == Done(a)
    ensures a.dragging && s.action == Move ==> r.run == Done(a)
    ensures Listening(a, view) && s.action == Down ==>
              r.run == Done(if RecordsOrigin(a, view, env) then a.(initialX := s.x, initialY := s.y) else a)
    ensures Listening(a, view) && (s.action == Up || s.action == Cancel) ==> r.run == Done(ResetTouch(a))
    ensures ListenerCalls(r.run.trace) == 0 && r.run.a.refreshing == a.refreshing
  {
    if !a.enabled || a.refreshing then Touched(Done(a), false)
    else if view !in a.views then Touched(Done(a), false)
    else
      match s.action
      case Move =>
        if !a.dragging && a.initialY > 0.0 then
          var yDiff := s.y - a.initialY;
          var xDiff := s.x - a.initialX;
          if yDiff > xDiff && yDiff > Slop(a) then
            var run := OnPullStarted(a.(dragging := true), s.y, env);
            Touched(run, run.a.dragging)
          else if yDiff < -Slop(a) then Touched(Done(ResetTouch(a)), false)
          else Touched(Done(a), a.dragging)
        else Touched(Done(a), a.dragging)
      case Down =>
        var a1 := if CanRefresh(a, true, a.views[view].listener) && env.readyForPull
                  then a.(initialX := s.x, initialY := s.y) else a;
        Touched(Done(a1), a1.dragging)
      case Up => Touched(Done(ResetTouch(a)), false)
      case Cancel => Touched(Done(ResetTouch(a)), false)
  }

  /**
    Follows a touch sequence on a registered view. A gesture that began with
    DOWN goes through `InterceptTouchEvent` until a drag starts; a drag then
    reports its progress on each MOVE and ends on release or reversal.
  */
  function TouchEvent(a: Attacher, view: ViewId, s: Sample, env: Env): (r: Touched)
    ensures !a.enabled || view !in a.views ==> r == Touched(Done(a), false)
    // a DOWN while not dragging starts a gesture on the intercept path
    ensures a.enabled && view in a.views && s.action == Down && !a.dragging ==>
              && r.result
              && r.run == Done(if RecordsOrigin(a, view, env)
                               then a.(handlingFromDown := true, initialX := s.x, initialY := s.y)
                               else a.(handlingFromDown := true))
    // until a drag starts, such a gesture is handled by the intercept path
    ensures a.enabled && view in a.views && a.handlingFromDown && !a.dragging ==>
              r.result && r.run == InterceptTouchEvent(a, view, s, env).run
    // a gesture not begun on the intercept path cannot start a drag
    ensures a.enabled && view in a.views && !a.handlingFromDown && !a.dragging && s.action == Move ==>
              r.run == Done(a)
    // moves during a drag
    // a DOWN during a drag only marks the gesture as seen from DOWN
    ensures a.enabled && view in a.views && a.dragging && s.action == Down ==>
              r == Touched(Done(a.(handlingFromDown := true)), true)
    ensures a.enabled && view in a.views && a.dragging && s.action == Move ==>
              && (a.refreshing ==> r == Touched(Done(a), false))
              && (!a.refreshing && s.y == a.lastY ==> r == Touched(Done(a), true))
              && (!a.refreshing && s.y != a.lastY ==> r == Touched(DragMove(a, view, s.y, env), true))
    // release outside the intercept path
    ensures a.enabled && view in a.views && (a.dragging || !a.handlingFromDown) && (s.action == Up || s.action == Cancel) ==>
              r == Touched(Release(a, view, env), true)
    ensures ListenerCalls(r.run.trace) <= 1
    ensures ListenerCalls(r.run.trace) == 1 ==> !a.refreshing && (r.run.a.refreshing <==> !env.listenerCompletes)
    ensures a.refreshing ==> r.run.a.refreshing
  {
    if !a.enabled then Touched(Done(a), false)
    else if view !in a.views then Touched(Done(a), false)
    else
      var a1 := if s.action == Down then a.(handlingFromDown := true) else a;
      if a1.handlingFromDown && !a1.dragging then
        Touched(InterceptTouchEvent(a1, view, s, env).run, true)
      else
        match s.action
        case Move =>
          if a1.refreshing then Touched(Done(a1), false)
          else if a1.dragging && s.y != a1.lastY then
            Touched(DragMove(a1, view, s.y, env), true)
          else Touched(Done(a1), true)
        case Down => Touched(Done(a1), true)
        case Up => Touched(Release(a1, view, env), true)
        case Cancel => Touched(Release(a1, view, env), true)
  }

  /**
    A MOVE to a new y during a drag. Within the slop upwards the pull goes on,
    and `lastY` follows only downward motion; further up the drag ends.
  */
  function DragMove(a: Attacher, view: ViewId, y: real, env: Env): (r: Run)
    requires !a.refreshing
    // moving up past the slop ends the pull: the refresh UI is reset, then the gesture
    ensures y - a.lastY < -Slop(a) ==>
              && r.trace == Reset(a, env).trace && r.thrown == Reset(a, env).thrown
              && ListenerCalls(r.trace) == 0 && !r.a.refreshing
              && (a.destroyed ==> r.thrown == Some(NullPointer))
              && (!a.destroyed ==>
                    && r.thrown.None? && HideHeader in r.trace
                    && r.a == ResetTouch(a).(pendingMinimize := if a.options.refreshMinimize then 0 else a.pendingMinimize))
    ensures y - a.lastY >= -Slop(a) ==>
              && r.trace == OnPull(a, view, y, env).trace
              && r.thrown == OnPull(a, view, y, env).thrown
              && (r.thrown.None? ==> r.a.lastY == (if y > a.lastY then y else OnPull(a, view, y, env).a.lastY))
    // below the threshold, or armed for release, the drag goes on and only a downward move updates lastY
    ensures && !a.destroyed && y - a.lastY >= -Slop(a)
            && (y - a.pullBeginY < Threshold(a, env) || a.options.refreshOnUp) ==>
              r.a == a.(lastY := if y > a.lastY then y else a.lastY)
    // past it in default mode the state is the refresh request's, with lastY then set by a downward move
    ensures && !a.destroyed && y - a.lastY >= -Slop(a)
            && y - a.pullBeginY >= Threshold(a, env) && !a.options.refreshOnUp ==>
              && r.thrown.None?
              && r.a.(lastY := -1.0) == SetRefreshingInt(a, Some(view), true, true, env).a
              && r.a.lastY == (if y > a.lastY then y else -1.0)
    ensures ListenerCalls(r.trace) == 1 ==> (r.a.refreshing <==> !env.listenerCompletes)
  {
    if y - a.lastY >= -Slop(a) then PullMove(a, view, y, env)
    else
      var ended := OnPullEnded(a, env);
      Chain(ended, Done(ResetTouch(ended.a)))
  }

  /** A drag MOVE that does not go up past the slop: pull, then follow downward motion. */
  function PullMove(a: Attacher, view: ViewId, y: real, env: Env): (r: Run)
    requires !a.refreshing && y - a.lastY >= -Slop(a)
    ensures r.trace == OnPull(a, view, y, env).trace && r.thrown == OnPull(a, view, y, env).thrown
    ensures r.thrown.None? ==> r.a.lastY == (if y > a.lastY then y else OnPull(a, view, y, env).a.lastY)
    ensures !a.destroyed && (y - a.pullBeginY < Threshold(a, env) || a.options.refreshOnUp) ==>
              r.a == a.(lastY := if y > a.lastY then y else a.lastY)
    ensures !a.destroyed && y - a.pullBeginY >= Threshold(a, env) && !a.options.refreshOnUp ==>
              && r.thrown.None?
              && r.a.(lastY := -1.0) == SetRefreshingInt(a, Some(view), true, true, env).a
              && r.a.lastY == (if y > a.lastY then y else -1.0)
    ensures ListenerCalls(r.trace) == 1 ==> (r.a.refreshing <==> !env.listenerCompletes)
  {
    var pulled := OnPull(a, view, y, env);
    Chain(pulled, Done(if y > a.lastY then pulled.a.(lastY := y) else pulled.a))
  }

  /**
    UP or CANCEL outside the intercept path: a refresh-on-up release past the
    threshold requests the refresh (which ends the drag, so the pull-ended
    reset is skipped); otherwise a drag ends; the gesture is reset either way.
  */
  function Release(a: Attacher, view: ViewId, env: Env): (r: Run)
    ensures r.thrown.None? ==> GestureReset(r.a)
    ensures ReleaseRefreshes(a, env) && !a.destroyed && !a.refreshing ==>
              && r.thrown.None?
              && r.a.refreshing == (ListenerFor(a, Some(view)).Some? && !env.listenerCompletes)
              && ListenerCalls(r.trace) == (if ListenerFor(a, Some(view)).Some? then 1 else 0)
              && (ListenerFor(a, Some(view)).Some? ==> RefreshStarted in r.trace)
              && (HideHeader in r.trace <==> ListenerFor(a, Some(view)).None? || env.listenerCompletes)
    ensures !ReleaseRefreshes(a, env) ==>
              && ListenerCalls(r.trace) == 0 && r.a.refreshing == a.refreshing
              && (a.dragging && !a.refreshing && !a.destroyed ==> HideHeader in r.trace)
              && (!a.dragging ==> r == Done(ResetTouch(a)))
    // a drag released without a refresh request ends the pull as onPullEnded does
    ensures !ReleaseRefreshes(a, env) && a.dragging && !a.refreshing && !a.destroyed ==>
              && r.thrown.None?
              && r.a == ResetTouch(a).(pendingMinimize := if a.options.refreshMinimize then 0 else a.pendingMinimize)
    ensures !ReleaseRefreshes(a, env) && a.refreshing ==> r == Done(ResetTouch(a))
    // a refresh-on-up release past the threshold touches only the gesture, the flag and the callback
    ensures ReleaseRefreshes(a, env) && !a.destroyed && !a.refreshing ==>
              && r.a == ResetTouch(a).(refreshing := r.a.refreshing, pendingMinimize := r.a.pendingMinimize)
              && (a.options.refreshMinimize ==> r.a.pendingMinimize == MinimizeAfterRequest(a, view, env))
              && (a.options.refreshMinimize && ListenerFor(a, Some(view)).Some? ==>
                    PostMinimize(MinimizeDelay(a.options)) in r.trace)
    ensures r.a.views == a.views && r.a.enabled == a.enabled && r.a.destroyed == a.destroyed && r.a.options == a.options
    ensures ListenerCalls(r.trace) <= 1
    ensures ListenerCalls(r.trace) == 1 ==> !a.refreshing && (r.a.refreshing <==> !env.listenerCompletes)
    ensures a.refreshing ==> r.a.refreshing
  {
    var checked := CheckScrollForRefresh(a, view, env);
    var ended := if checked.a.dragging then OnPullEnded(checked.a, env) else Done(checked.a);
    Chain(checked, Chain(ended, Done(ResetTouch(ended.a))))
  }
}

=== FILE: machine.dfy ===
/**
  The attacher as a whole: one pure step per event delivered to it (a touch
  sample, a call of its public API, a garbage collection, the minimize
  callback running), replayed over event sequences, with the invariants and
  sequence properties that follow.
*/
module Machine {
  import opened State
  import opened Registry
  import opened Refresh
  import opened Gesture

  datatype Event =
    | Touch(view: ViewId, sample: Sample)          // the view's OnTouchListener fires
    | Intercept(view: ViewId, sample: Sample)      // a parent asks onInterceptTouchEvent directly
    | RequestRefreshing(refreshing: bool)          // setRefreshing / setRefreshComplete
    | Enable(enabled: bool)                        // setEnabled
    | AddView(newView: Option<ViewId>, delegate: Option<DelegateId>,
              newListener: Option<ListenerId>, builtIn: Option<DelegateId>)
    | RemoveView(view: ViewId)
    | ClearViews
    | DestroyAttacher
    | SetHeaderListener(present: bool)
    | ListenerCollected(listener: ListenerId)      // a weakly held refresh listener is collected
    | ViewCollected(view: ViewId)                  // a weakly held view is collected
    | MinimizeTimerFires                           // the handler runs the minimize callback

  datatype Input = Input(event: Event, env: Env)

  datatype History = History(a: Attacher, trace: seq<Effect>)

  /**
    Delivers one event. Only a touch can call a refresh listener, at most once
    and only when no refresh was running.
  */
  function Step(a: Attacher, e: Event, env: Env): (r: Run)
    ensures ListenerCalls(r.trace) <= 1
    ensures ListenerCalls(r.trace) == 1 ==> e.Touch? && !a.refreshing
  {
    match e
    case Touch(view, sample) => TouchEvent(a, view, sample, env).run
    case Intercept(view, sample) => InterceptTouchEvent(a, view, sample, env).run
    case RequestRefreshing(refreshing) => SetRefreshingInt(a, None, refreshing, false, env)
    case Enable(enabled) => SetEnabled(a, enabled, env)
    case AddView(view, delegate, listener, builtIn) => AddRefreshableView(a, view, delegate, listener, builtIn)
    case RemoveView(view) => RemoveRefreshableView(a, view)
    case ClearViews => ClearRefreshableViews(a)
    case DestroyAttacher => Destroy(a)
    case SetHeaderListener(present) => Done(a.(headerListener := present))
    case ListenerCollected(listener) => Done(ListenerGone(a, listener))
    case ViewCollected(view) => Done(ViewGone(a, view))
    case MinimizeTimerFires => RunMinimizeCallback(a)
  }

  /**
    Feeds the inputs one by one. An exception ends only the call that threw;
    the host may catch it and deliver further events.
  */
  function Replay(a: Attacher, ins: seq<Input>): History
    decreases |ins|
  {
    if ins == [] then History(a, [])
    else
      var r := Step(a, ins[0].event, ins[0].env);
      var rest := Replay(r.a, ins[1..]);
      History(rest.a, r.trace + rest.trace)
  }

  /** The invariant every reachable attacher satisfies. */
  predicate Inv(a: Attacher)
  {
    && a.pendingMinimize <= 1
    && (a.pendingMinimize > 0 ==> a.refreshing && a.options.refreshMinimize)
    && (a.refreshing ==> !a.dragging)
    && (a.dragging ==> a.enabled)
    && (a.destroyed ==> a.views == map[])
  }

  /**
    Whether handling the event may call a refresh listener that ends the
    refresh from inside its callback. Only a touch calls a listener.
  */
  predicate MayReenter(e: Event, env: Env)
  {
    e.Touch? && env.listenerCompletes
  }

  lemma NewAttacherInv(options: Options, touchSlop: nat)
    ensures Inv(NewAttacher(options, touchSlop))
  {
  }

  lemma StepPreservesInv(a: Attacher, e: Event, env: Env)
    requires Inv(a) && !MayReenter(e, env)
    ensures Inv(Step(a, e, env).a)
  {
    match e
    case Touch(view, sample) =>
      TouchPreservesInv(a, view, sample, env);
    case Intercept(view, sample) =>
      InterceptPreservesInv(a, view, sample, env);
    case RequestRefreshing(refreshing) =>
      SetRefreshingPreservesInv(a, None, refreshing, false, env);
    case Enable(enabled) =>
      EnablePreservesInv(a, enabled, env);
    case _ =>
  }

  lemma InterceptPreservesInv(a: Attacher, view: ViewId, s: Sample, env: Env)
    requires Inv(a)
    ensures Inv(InterceptTouchEvent(a, view, s, env).run.a)
  {
  }

  lemma EnablePreservesInv(a: Attacher, enabled: bool, env: Env)
    requires Inv(a)
    ensures Inv(SetEnabled(a, enabled, env).a)
  {
  }

  lemma TouchPreservesInv(a: Attacher, view: ViewId, s: Sample, env: Env)
    requires Inv(a) && !env.listenerCompletes
    ensures Inv(TouchEvent(a, view, s, env).run.a)
  {
    if a.enabled && view in a.views {
      if (a.handlingFromDown || s.action == Down) && !a.dragging {
        var a1 := if s.action == Down then a.(handlingFromDown := true) else a;
        assert TouchEvent(a, view, s, env).run == InterceptTouchEvent(a1, view, s, env).run;
      } else if s.action == Move && !a.refreshing && a.dragging && s.y != a.lastY {
        DragMovePreservesInv(a, view, s.y, env);
      } else if s.action == Up || s.action == Cancel {
        ReleasePreservesInv(a, view, env);
      }
    }
  }

  lemma SetRefreshingPreservesInv(a: Attacher, view: Option<ViewId>, refreshing: bool, fromTouch: bool, env: Env)
    requires Inv(a) && !ListenerCompletes(a, view, fromTouch, env)
    ensures Inv(SetRefreshingInt(a, view, refreshing, fromTouch, env).a)
  {
    if !a.destroyed && a.refreshing != refreshing {
      var a1 := ResetTouch(a);
      if refreshing && CanRefresh(a1, fromTouch, ListenerFor(a1, view)) {
        assert a1.pendingMinimize == 0;
      }
    }
  }

  lemma DragMovePreservesInv(a: Attacher, view: ViewId, y: real, env: Env)
    requires Inv(a) && !a.refreshing && !env.listenerCompletes
    ensures Inv(DragMove(a, view, y, env).a)
  {
    if y - a.lastY >= -Slop(a) {
      var pulled := OnPull(a, view, y, env);
      if y - a.pullBeginY >= Threshold(a, env) && !a.options.refreshOnUp {
        SetRefreshingPreservesInv(a, Some(view), true, true, env);
      }
      assert Inv(pulled.a);
      assert DragMove(a, view, y, env).a in {pulled.a, pulled.a.(lastY := y)};
    } else {
      var ended := OnPullEnded(a, env);
      assert Inv(ended.a.(dragging := false));
      assert DragMove(a, view, y, env).a in {ended.a, ResetTouch(ended.a)};
    }
  }

  lemma ReleasePreservesInv(a: Attacher, view: ViewId, env: Env)
    requires Inv(a) && !env.listenerCompletes
    ensures Inv(Release(a, view, env).a)
  {
    var checked := CheckScrollForRefresh(a, view, env);
    if ReleaseRefreshes(a, env) {
      SetRefreshingPreservesInv(a, Some(view), true, true, env);
    }
    assert Inv(checked.a);
    var ended := if checked.a.dragging then OnPullEnded(checked.a, env) else Done(checked.a);
    assert Inv(ended.a.(dragging := false));
    assert Release(a, view, env).a in {checked.a, ended.a, ResetTouch(ended.a)};
  }

  /**
    Every state reached from a state satisfying the invariant satisfies it,
    as long as no refresh listener ends its refresh from inside its callback.
  */
  lemma {:induction false} ReplayPreservesInv(a: Attacher, ins: seq<Input>)
    requires Inv(a)
    requires forall i :: 0 <= i < |ins| ==> !MayReenter(ins[i].event, ins[i].env)
    ensures Inv(Replay(a, ins).a)
    decreases |ins|
  {
    if ins != [] {
      StepPreservesInv(a, ins[0].event, ins[0].env);
      ReplayPreservesInv(Step(a, ins[0].event, ins[0].env).a, ins[1..]);
    }
  }

  /** The events through which the host ends a refresh. */
  predicate EndsRefresh(e: Event)
  {
    e == RequestRefreshing(false) || e == Enable(false)
  }

  lemma StepRefreshCallbacks(a: Attacher, e: Event, env: Env)
    requires !EndsRefresh(e) && !MayReenter(e, env)
    ensures var r := Step(a, e, env);
            && (a.refreshing ==> r.a.refreshing)
            && ListenerCalls(r.trace) <= (if a.refreshing then 0 else 1)
            && (ListenerCalls(r.trace) > 0 ==> r.a.refreshing)
  {
  }

  /**
    Unless the host or the listener itself ends the refresh, the refresh
    listener is called at most once however many gestures follow, and not at
    all while a refresh runs.
  */
  lemma {:induction false} AtMostOneRefreshCallback(a: Attacher, ins: seq<Input>)
    requires forall i :: 0 <= i < |ins| ==> !EndsRefresh(ins[i].event) && !MayReenter(ins[i].event, ins[i].env)
    ensures ListenerCalls(Replay(a, ins).trace) <= (if a.refreshing then 0 else 1)
    ensures a.refreshing ==> Replay(a, ins).a.refreshing
    ensures ListenerCalls(Replay(a, ins).trace) > 0 ==> Replay(a, ins).a.refreshing
    decreases |ins|
  {
    if ins != [] {
      var r := Step(a, ins[0].event, ins[0].env);
      StepRefreshCallbacks(a, ins[0].event, ins[0].env);
      AtMostOneRefreshCallback(r.a, ins[1..]);
      ListenerCallsAppend(r.trace, Replay(r.a, ins[1..]).trace);
    }
  }

  /** Whether an event is a DOWN sample, the only way a drag origin is recorded. */
  predicate IsDown(e: Event)
  {
    (e.Touch? || e.Intercept?) && e.sample.action == Down
  }

  /** Whether the event is a DOWN that records a drag origin in `a`. */
  predicate RecordsOriginOn(a: Attacher, e: Event, env: Env)
  {
    IsDown(e) && RecordsOrigin(a, e.view, env)
  }

  lemma StepWithoutOrigin(a: Attacher, e: Event, env: Env)
    requires !a.dragging && NoCandidate(a) && !RecordsOriginOn(a, e, env)
    ensures var r := Step(a, e, env);
            !r.a.dragging && NoCandidate(r.a) && ListenerCalls(r.trace) == 0
  {
    match e
    case Touch(view, sample) =>
      TouchWithoutOrigin(a, view, sample, env);
    case Intercept(view, sample) =>
      var r := InterceptTouchEvent(a, view, sample, env);
      assert !r.run.a.dragging;
    case _ =>
  }

  lemma TouchWithoutOrigin(a: Attacher, view: ViewId, s: Sample, env: Env)
    requires !a.dragging && NoCandidate(a) && (s.action == Down ==> !RecordsOrigin(a, view, env))
    ensures var r := TouchEvent(a, view, s, env).run;
            !r.a.dragging && NoCandidate(r.a) && ListenerCalls(r.trace) == 0
  {
    if a.enabled && view in a.views {
      var a1 := if s.action == Down then a.(handlingFromDown := true) else a;
      if a1.handlingFromDown {
        assert RecordsOrigin(a1, view, env) == RecordsOrigin(a, view, env);
        assert TouchEvent(a, view, s, env).run == InterceptTouchEvent(a1, view, s, env).run;
      } else if s.action == Up || s.action == Cancel {
        assert !ReleaseRefreshes(a, env);
      }
    }
  }

  /**
    Without a DOWN that records an origin no drag starts, so the refresh
    listener is never called. A DOWN records none when the view is not ready
    for a pull, its listener was collected, a refresh is running, the attacher
    is disabled or the view is not registered.
  */
  lemma {:induction false} NoDragWithoutOrigin(a: Attacher, ins: seq<Input>)
    requires !a.dragging && NoCandidate(a)
    requires forall i :: 0 <= i < |ins| ==> !RecordsOriginOn(Replay(a, ins[..i]).a, ins[i].event, ins[i].env)
    ensures !Replay(a, ins).a.dragging && NoCandidate(Replay(a, ins).a)
    ensures ListenerCalls(Replay(a, ins).trace) == 0
    decreases |ins|
  {
    if ins != [] {
      var r := Step(a, ins[0].event, ins[0].env);
      assert Replay(a, ins[..0]).a == a;
      StepWithoutOrigin(a, ins[0].event, ins[0].env);
      forall i | 0 <= i < |ins[1..]|
        ensures !RecordsOriginOn(Replay(r.a, ins[1..][..i]).a, ins[1..][i].event, ins[1..][i].env)
      {
        assert ins[..i + 1][1..] == ins[1..][..i];
        assert ins[..i + 1][0] == ins[0];
        assert Replay(a, ins[..i + 1]).a == Replay(r.a, ins[1..][..i]).a;
        assert ins[1..][i] == ins[i + 1];
      }
      NoDragWithoutOrigin(r.a, ins[1..]);
      ListenerCallsAppend(r.trace, Replay(r.a, ins[1..]).trace);
    }
  }

  /**
    When no DOWN finds its view ready for a pull, no drag starts and the
    refresh listener is never called.
  */
  lemma {:induction false} NoDragWithoutReadyDown(a: Attacher, ins: seq<Input>)
    requires !a.dragging && NoCandidate(a)
    requires forall i :: 0 <= i < |ins| ==> IsDown(ins[i].event) ==> !ins[i].env.readyForPull
    ensures !Replay(a, ins).a.dragging && NoCandidate(Replay(a, ins).a)
    ensures ListenerCalls(Replay(a, ins).trace) == 0
  {
    forall i | 0 <= i < |ins|
      ensures !RecordsOriginOn(Replay(a, ins[..i]).a, ins[i].event, ins[i].env)
    {
    }
    NoDragWithoutOrigin(a, ins);
  }

  /**
    A DOWN that fails the readiness check keeps the origin an earlier gesture
    recorded, so a MOVE measured from that stale origin still starts a drag.
  */
  lemma StaleOriginSurvivesFailedDown(a: Attacher, view: ViewId, down: Sample, move: Sample, env: Env, env2: Env)
    requires !a.dragging && !a.destroyed && down.action == Down && !env.readyForPull
    requires StartsDrag(a, view, move)
    ensures var pressed := Step(a, Touch(view, down), env).a;
            && pressed.initialY == a.initialY && pressed.initialX == a.initialX
            && Step(pressed, Touch(view, move), env2).a.dragging
  {
    var pressed := Step(a, Touch(view, down), env).a;
    assert pressed == a.(handlingFromDown := true);
    assert StartsDrag(pressed, view, move);
  }

  lemma StepAfterDestroy(a: Attacher, e: Event, env: Env)
    requires a.destroyed && a.views == map[]
    ensures var r := Step(a, e, env);
            && r.a.destroyed && r.a.views == map[] && ListenerCalls(r.trace) == 0
            && (e.RequestRefreshing? || e.AddView? || e.RemoveView? || e.ClearViews? ==>
                  r == Run(a, [], Some(IllegalState)))
  {
    match e
    case Touch(view, sample) =>
      assert view !in a.views;
    case Intercept(view, sample) =>
      assert view !in a.views;
    case Enable(enabled) =>
      var r := SetEnabled(a, enabled, env);
      assert r.a.views == a.views && ListenerCalls(r.trace) == 0;
    case _ =>
  }

  /**
    Destroy is final: the registry stays empty, the refresh listener is never
    called again, and the registry and refresh requests keep failing.
  */
  lemma {:induction false} DestroyIsFinal(a: Attacher, ins: seq<Input>)
    requires a.destroyed && a.views == map[]
    ensures Replay(a, ins).a.destroyed && Replay(a, ins).a.views == map[]
    ensures ListenerCalls(Replay(a, ins).trace) == 0
    decreases |ins|
  {
    if ins != [] {
      var r := Step(a, ins[0].event, ins[0].env);
      StepAfterDestroy(a, ins[0].event, ins[0].env);
      DestroyIsFinal(r.a, ins[1..]);
      ListenerCallsAppend(r.trace, Replay(r.a, ins[1..]).trace);
    }
  }

  /**
    Destroying while a minimize callback is queued leaves it queued; when it
    runs it calls the released header transformer and fails.
  */
  lemma DestroyKeepsMinimizeCallback(a: Attacher, env: Env)
    requires Inv(a) && !a.destroyed && a.pendingMinimize > 0
    ensures var destroyed := Step(a, DestroyAttacher, env).a;
            && destroyed.refreshing && destroyed.pendingMinimize == 1
            && Step(destroyed, MinimizeTimerFires, env).thrown == Some(NullPointer)
  {
  }

  /** Ending the refresh cancels the minimize callback: it can no longer fire. */
  lemma EndingRefreshCancelsMinimize(a: Attacher, e: Event, env: Env, env2: Env)
    requires Inv(a) && a.refreshing && !a.destroyed && EndsRefresh(e)
    ensures var ended := Step(a, e, env).a;
            !ended.refreshing && Step(ended, MinimizeTimerFires, env2) == Done(ended)
  {
    if e == RequestRefreshing(false) {
      StopLeavesNoCallback(a, env);
    } else {
      DisableLeavesNoCallback(a, env);
    }
  }

  /** A top-level setRefreshing(false) during a refresh leaves no callback queued. */
  lemma StopLeavesNoCallback(a: Attacher, env: Env)
    requires Inv(a) && a.refreshing && !a.destroyed
    ensures var ended := SetRefreshingInt(a, None, false, false, env).a;
            !ended.refreshing && ended.pendingMinimize == 0
  {
  }

  /** setEnabled(false) during a refresh leaves no callback queued. */
  lemma DisableLeavesNoCallback(a: Attacher, env: Env)
    requires Inv(a) && a.refreshing && !a.destroyed
    ensures var ended := SetEnabled(a, false, env).a;
            !ended.refreshing && ended.pendingMinimize == 0
  {
  }

  /**
    A DOWN on a view whose refresh listener was collected records no origin:
    whatever origin the attacher held before stays as it was.
  */
  lemma CollectedListenerBlocksDrag(a: Attacher, view: ViewId, l: ListenerId, x: real, y: real, env: Env)
    requires view in a.views && a.views[view].listener == Some(l) && !a.dragging
    ensures var gone := ListenerGone(a, l);
            var down := TouchEvent(gone, view, Sample(Down, x, y), env).run;
            down.a.initialY == a.initialY && down.trace == []
  {
  }

  /**
    The release position does not matter: UP and CANCEL compare the last
    recorded y, not the y of the release sample, against the threshold.
  */
  lemma ReleaseIgnoresPosition(a: Attacher, view: ViewId, s1: Sample, s2: Sample, env: Env)
    requires s1.action == Up || s1.action == Cancel
    requires s2.action == Up || s2.action == Cancel
    ensures TouchEvent(a, view, s1, env) == TouchEvent(a, view, s2, env)
  {
  }
}

=== FILE: refresh.dfy ===
/**
  The refresh state machine: the refreshing flag, the refresh listener and
  header transformer calls it drives, header visibility notifications, and the
  one-shot minimize callback it queues and cancels.
*/
module Refresh {
  import opened State
  import opened Registry

  /** The pull distance, in pixels, that triggers a refresh. */
  function Threshold(a: Attacher, env: Env): (t: real)
    ensures t > 0.0
  {
    PositiveProduct(env.viewHeight, a.options.refreshScrollDistance);
    env.viewHeight * a.options.refreshScrollDistance
  }

  lemma PositiveProduct(x: PosReal, y: PosReal)
    ensures x * y > 0.0
  {
  }

  /**
    One call on the header transformer. After destroy the transformer is
    released, so the call fails with a null pointer.
  */
  function TransformerCall(a: Attacher, e: Effect): (r: Run)
    ensures r.a == a
    ensures a.destroyed <==> r.thrown.Some?
    ensures a.destroyed ==> r.thrown == Some(NullPointer) && r.trace == []
    ensures !a.destroyed ==> r.trace == [e]
    ensures ListenerCalls(r.trace) == (if !a.destroyed && e.ListenerRefreshStarted? then 1 else 0)
  {
    ListenerCallsSingle(e);
    if a.destroyed then Run(a, [], Some(NullPointer)) else Run(a, [e], None)
  }

  /** Shows the header; observers hear of it only when the visibility changed. */
  function ShowHeaderView(a: Attacher, env: Env): (r: Run)
    ensures r.a == a && ListenerCalls(r.trace) == 0
    ensures a.destroyed ==> r.thrown == Some(NullPointer) && r.trace == []
    ensures !a.destroyed ==> r.thrown.None? && 1 <= |r.trace| <= 2 && r.trace[0] == ShowHeader
    // exactly one transformer call, followed by at most the one observer call
    ensures !a.destroyed ==> |r.trace| == (if env.showChanged && a.headerListener then 2 else 1)
    ensures HeaderStateChanged(Visible) in r.trace <==> !a.destroyed && env.showChanged && a.headerListener
    ensures forall e :: e in r.trace ==> e == ShowHeader || e == HeaderStateChanged(Visible)
  {
    var call := TransformerCall(a, ShowHeader);
    var notify := if env.showChanged && a.headerListener then [HeaderStateChanged(Visible)] else [];
    Chain(call, Run(a, notify, None))
  }

  /** Hides the header; observers hear of it only when the visibility changed. */
  function HideHeaderView(a: Attacher, env: Env): (r: Run)
    ensures r.a == a && ListenerCalls(r.trace) == 0
    ensures a.destroyed ==> r.thrown == Some(NullPointer) && r.trace == []
    ensures !a.destroyed ==> r.thrown.None? && 1 <= |r.trace| <= 2 && r.trace[0] == HideHeader
    // exactly one transformer call, followed by at most the one observer call
    ensures !a.destroyed ==> |r.trace| == (if env.hideChanged && a.headerListener then 2 else 1)
    ensures HeaderStateChanged(Hidden) in r.trace <==> !a.destroyed && env.hideChanged && a.headerListener
    ensures forall e :: e in r.trace ==> e == HideHeader || e == HeaderStateChanged(Hidden)
  {
    var call := TransformerCall(a, HideHeader);
    var notify := if env.hideChanged && a.headerListener then [HeaderStateChanged(Hidden)] else [];
    Chain(call, Run(a, notify, None))
  }

  /**
    A refresh may start when none is running and, for a touch-initiated
    refresh, the view's listener is still reachable.
  */
  predicate CanRefresh(a: Attacher, fromTouch: bool, listener: Option<ListenerId>)
  {
    !a.refreshing && (!fromTouch || listener.Some?)
  }

  /** The handler delay of the minimize callback: 0 stands for an immediate post. */
  function MinimizeDelay(o: Options): (d: nat)
    ensures d > 0 <==> o.refreshMinimizeDelay > 0
    ensures d > 0 ==> d == o.refreshMinimizeDelay
  {
    if o.refreshMinimizeDelay > 0 then o.refreshMinimizeDelay else 0
  }

  /**
    Ends the refresh: clears the flag, cancels the minimize callback and hides
    the header. The transformer's onReset hook is not called.
  */
  function Reset(a: Attacher, env: Env): (r: Run)
    ensures !r.a.refreshing
    ensures a.options.refreshMinimize ==> r.a.pendingMinimize == 0
    ensures !a.options.refreshMinimize ==> r.a.pendingMinimize == a.pendingMinimize
    ensures r.a == a.(refreshing := false, pendingMinimize := r.a.pendingMinimize)
    ensures a.destroyed <==> r.thrown == Some(NullPointer)
    ensures ListenerCalls(r.trace) == 0
    ensures !a.destroyed ==> HideHeader in r.trace
    ensures forall e :: e in r.trace ==> e == CancelMinimize || e == HideHeader || e == HeaderStateChanged(Hidden)
  {
    var a1 := a.(refreshing := false,
                 pendingMinimize := if a.options.refreshMinimize then 0 else a.pendingMinimize);
    var cancel := if a.options.refreshMinimize then [CancelMinimize] else [];
    Chain(Run(a1, cancel, None), HideHeaderView(a1, env))
  }

  /**
    Whether the listener called by a refresh start ends that refresh
    (`setRefreshComplete`) before its `onRefreshStarted` callback returns.
  */
  predicate ListenerCompletes(a: Attacher, view: Option<ViewId>, fromTouch: bool, env: Env)
  {
    fromTouch && ListenerFor(a, view).Some? && env.listenerCompletes
  }

  /**
    `setRefreshComplete` on a refreshing attacher, as a listener may call it
    from inside its callback: the destroyed check, then the gesture and the
    refresh are reset.
  */
  function CompleteRefresh(a: Attacher, env: Env): (r: Run)
    requires a.refreshing
    ensures a.destroyed ==> r == Run(a, [], Some(IllegalState))
    ensures !a.destroyed ==>
              && r.thrown.None? && !r.a.refreshing && GestureReset(r.a)
              && r.a == ResetTouch(a).(refreshing := false, pendingMinimize := r.a.pendingMinimize)
              && HideHeader in r.trace && RefreshStarted !in r.trace && ShowHeader !in r.trace
              && (a.options.refreshMinimize ==> r.a.pendingMinimize == 0 && CancelMinimize in r.trace)
              && (!a.options.refreshMinimize ==> r.a.pendingMinimize == a.pendingMinimize)
    ensures ListenerCalls(r.trace) == 0
    ensures forall e :: e in r.trace ==> !e.PostMinimize?
  {
    if a.destroyed then CheckIfDestroyed(a) else Reset(ResetTouch(a), env)
  }

  /**
    Starts the refresh: sets the flag, calls the view's listener when the
    request came from touch and the listener is still reachable, tells the
    transformer, shows the header and queues the minimize callback. A listener
    that completes the refresh from inside its callback resets it before the
    transformer hears that it started, and the start goes on regardless.
  */
  function StartRefresh(a: Attacher, view: Option<ViewId>, fromTouch: bool, env: Env): (r: Run)
    ensures var completes := ListenerCompletes(a, view, fromTouch, env);
            && r.a.refreshing == (a.destroyed || !completes)
            && (a.destroyed <==> r.thrown.Some?)
            && (a.destroyed ==> r.thrown == Some(if completes then IllegalState else NullPointer))
            && (!completes || a.destroyed ==> r.a == a.(refreshing := true, pendingMinimize := r.a.pendingMinimize))
            && (completes && !a.destroyed ==>
                  r.a == ResetTouch(a).(refreshing := false, pendingMinimize := r.a.pendingMinimize))
    ensures ListenerCalls(r.trace) == (if fromTouch && ListenerFor(a, view).Some? then 1 else 0)
    ensures fromTouch && ListenerFor(a, view).Some? ==>
              r.trace[0] == ListenerRefreshStarted(ListenerFor(a, view).value, view.value)
    ensures !a.destroyed ==> RefreshStarted in r.trace && ShowHeader in r.trace
    ensures !a.destroyed ==> (HideHeader in r.trace <==> ListenerCompletes(a, view, fromTouch, env))
    ensures !a.destroyed && a.options.refreshMinimize ==>
              && PostMinimize(MinimizeDelay(a.options)) in r.trace
              && r.a.pendingMinimize == (if ListenerCompletes(a, view, fromTouch, env) then 1 else a.pendingMinimize + 1)
    ensures a.destroyed || !a.options.refreshMinimize ==>
              r.a.pendingMinimize == a.pendingMinimize && forall e :: e in r.trace ==> !e.PostMinimize?
  {
    if ListenerCompletes(a, view, fromTouch, env) then StartCompletedInside(a, view, env)
    else StartToTheEnd(a, view, fromTouch, env)
  }

  /** A refresh start whose listener does not end the refresh. */
  function StartToTheEnd(a: Attacher, view: Option<ViewId>, fromTouch: bool, env: Env): (r: Run)
    requires !ListenerCompletes(a, view, fromTouch, env)
    ensures r.a == a.(refreshing := true, pendingMinimize := r.a.pendingMinimize)
    ensures a.destroyed <==> r.thrown == Some(NullPointer)
    ensures ListenerCalls(r.trace) == (if fromTouch && ListenerFor(a, view).Some? then 1 else 0)
    ensures fromTouch && ListenerFor(a, view).Some? ==>
              r.trace[0] == ListenerRefreshStarted(ListenerFor(a, view).value, view.value)
    ensures !a.destroyed ==> RefreshStarted in r.trace && ShowHeader in r.trace && HideHeader !in r.trace
    ensures !a.destroyed && a.options.refreshMinimize ==>
              r.a.pendingMinimize == a.pendingMinimize + 1 && PostMinimize(MinimizeDelay(a.options)) in r.trace
    ensures a.destroyed || !a.options.refreshMinimize ==>
              r.a.pendingMinimize == a.pendingMinimize && forall e :: e in r.trace ==> !e.PostMinimize?
  {
    var notify := RefreshListenerCall(a, view, fromTouch);
    if a.destroyed then
      // the released transformer's onRefreshStarted is the next call
      Run(a.(refreshing := true), notify, Some(NullPointer))
    else LiveStart(a, view, fromTouch, env)
  }

  /** A refresh start on a live attacher whose listener does not end the refresh. */
  function LiveStart(a: Attacher, view: Option<ViewId>, fromTouch: bool, env: Env): (r: Run)
    requires !a.destroyed && !ListenerCompletes(a, view, fromTouch, env)
    ensures r.thrown.None? && r.a == a.(refreshing := true, pendingMinimize := r.a.pendingMinimize)
    ensures ListenerCalls(r.trace) == (if fromTouch && ListenerFor(a, view).Some? then 1 else 0)
    ensures fromTouch && ListenerFor(a, view).Some? ==>
              r.trace[0] == ListenerRefreshStarted(ListenerFor(a, view).value, view.value)
    ensures RefreshStarted in r.trace && ShowHeader in r.trace && HideHeader !in r.trace
    ensures a.options.refreshMinimize ==>
              r.a.pendingMinimize == a.pendingMinimize + 1 && PostMinimize(MinimizeDelay(a.options)) in r.trace
    ensures !a.options.refreshMinimize ==>
              r.a.pendingMinimize == a.pendingMinimize && forall e :: e in r.trace ==> !e.PostMinimize?
  {
    var notify := RefreshListenerCall(a, view, fromTouch);
    var announced := AnnounceRefresh(a.(refreshing := true), env);
    Prepended(notify, announced.trace);
    Run(announced.a, notify + announced.trace, None)
  }

  /** A refresh start whose listener ends the refresh before it returns. */
  function StartCompletedInside(a: Attacher, view: Option<ViewId>, env: Env): (r: Run)
    requires ListenerCompletes(a, view, true, env)
    ensures r.a.refreshing == a.destroyed
    ensures a.destroyed ==> r.thrown == Some(IllegalState) && r.a == a.(refreshing := true)
    ensures !a.destroyed ==> r.thrown.None? && r.a == ResetTouch(a).(refreshing := false, pendingMinimize := r.a.pendingMinimize)
    ensures ListenerCalls(r.trace) == 1
    ensures r.trace[0] == ListenerRefreshStarted(ListenerFor(a, view).value, view.value)
    ensures !a.destroyed ==> RefreshStarted in r.trace && ShowHeader in r.trace && HideHeader in r.trace
    ensures !a.destroyed && a.options.refreshMinimize ==>
              r.a.pendingMinimize == 1 && PostMinimize(MinimizeDelay(a.options)) in r.trace
    ensures a.destroyed || !a.options.refreshMinimize ==>
              r.a.pendingMinimize == a.pendingMinimize && forall e :: e in r.trace ==> !e.PostMinimize?
  {
    var notify := RefreshListenerCall(a, view, true);
    var inner := CompleteRefresh(a.(refreshing := true), env);
    Prepended(notify, inner.trace);
    if a.destroyed then Run(inner.a, notify + inner.trace, inner.thrown)
    else
      var announced := AnnounceRefresh(inner.a, env);
      Prepended(notify + inner.trace, announced.trace);
      Run(announced.a, (notify + inner.trace) + announced.trace, None)
  }

  /** Calls appended after the listener call keep it first and add no listener call. */
  lemma Prepended(notify: seq<Effect>, t: seq<Effect>)
    requires ListenerCalls(t) == 0
    ensures ListenerCalls(notify + t) == ListenerCalls(notify)
    ensures |notify| > 0 ==> (notify + t)[0] == notify[0]
  {
    ListenerCallsAppend(notify, t);
  }

  /**
    What follows the listener call of a refresh start on a live attacher:
    onRefreshStarted, then showing the header, then, last, queueing the
    minimize callback.
  */
  function AnnounceRefresh(a: Attacher, env: Env): (r: Run)
    requires !a.destroyed
    ensures r.thrown.None? && r.a == a.(pendingMinimize := r.a.pendingMinimize)
    ensures ListenerCalls(r.trace) == 0
    ensures |r.trace| >= 2 && r.trace[0] == RefreshStarted && r.trace[1] == ShowHeader
    ensures HideHeader !in r.trace
    ensures a.options.refreshMinimize ==>
              && r.a.pendingMinimize == a.pendingMinimize + 1
              && r.trace[|r.trace| - 1] == PostMinimize(MinimizeDelay(a.options))
    ensures !a.options.refreshMinimize ==>
              r.a.pendingMinimize == a.pendingMinimize && forall e :: e in r.trace ==> !e.PostMinimize?
  {
    var shown := ShowHeaderView(a, env);
    var post := QueueMinimize(a);
    AnnouncedCalls(shown.trace, post.trace);
    AnnouncedTrace(shown.trace, post.trace);
    Run(post.a, [RefreshStarted] + (shown.trace + post.trace), None)
  }

  /** Where the calls of a refresh start sit in its trace. */
  lemma AnnouncedTrace(shown: seq<Effect>, post: seq<Effect>)
    requires |shown| >= 1 && shown[0] == ShowHeader
    requires forall e :: e in shown ==> e == ShowHeader || e == HeaderStateChanged(Visible)
    ensures var t := [RefreshStarted] + (shown + post);
            && |t| >= 2 && t[0] == RefreshStarted && t[1] == ShowHeader
            && (|post| > 0 ==> t[|t| - 1] == post[|post| - 1])
            && (HideHeader in t <==> HideHeader in post)
            && (forall e :: e in t && e.PostMinimize? ==> e in post)
  {
  }

  /** A refresh start adds no listener call of its own. */
  lemma AnnouncedCalls(shown: seq<Effect>, post: seq<Effect>)
    requires ListenerCalls(shown) == 0 && ListenerCalls(post) == 0
    ensures ListenerCalls([RefreshStarted] + (shown + post)) == 0
  {
    ListenerCallsAppend(shown, post);
    ListenerCallsAppend([RefreshStarted], shown + post);
    ListenerCallsSingle(RefreshStarted);
  }

  /** The OnRefreshListener call of a refresh start, when there is one to make. */
  function RefreshListenerCall(a: Attacher, view: Option<ViewId>, fromTouch: bool): (t: seq<Effect>)
    ensures ListenerCalls(t) == |t| && forall e :: e in t ==> e.ListenerRefreshStarted?
    ensures |t| == (if fromTouch && ListenerFor(a, view).Some? then 1 else 0)
    ensures |t| == 1 ==> t[0] == ListenerRefreshStarted(ListenerFor(a, view).value, view.value)
  {
    var l := ListenerFor(a, view);
    if fromTouch && l.Some? then
      ListenerCallsSingle(ListenerRefreshStarted(l.value, view.value));
      [ListenerRefreshStarted(l.value, view.value)]
    else []
  }

  /** Queues the minimize callback when minimization is enabled. */
  function QueueMinimize(a: Attacher): (r: Run)
    ensures r.thrown.None? && ListenerCalls(r.trace) == 0
    ensures a.options.refreshMinimize ==>
              r.a == a.(pendingMinimize := a.pendingMinimize + 1) && r.trace == [PostMinimize(MinimizeDelay(a.options))]
    ensures !a.options.refreshMinimize ==> r == Done(a)
  {
    ListenerCallsSingle(PostMinimize(MinimizeDelay(a.options)));
    if a.options.refreshMinimize
    then Run(a.(pendingMinimize := a.pendingMinimize + 1), [PostMinimize(MinimizeDelay(a.options))], None)
    else Done(a)
  }

  /** Whether a request to change the refreshing flag starts a refresh. */
  predicate StartsRefresh(a: Attacher, view: Option<ViewId>, refreshing: bool, fromTouch: bool)
  {
    refreshing && (!fromTouch || ListenerFor(a, view).Some?)
  }

  /**
    The single entry point that changes the refreshing flag. Asking for the
    state the attacher is already in does nothing at all; otherwise the
    gesture is reset and the refresh starts (if it may) or ends.
  */
  function SetRefreshingInt(a: Attacher, view: Option<ViewId>, refreshing: bool, fromTouch: bool, env: Env): (r: Run)
    ensures a.destroyed ==> r == Run(a, [], Some(IllegalState))
    ensures !a.destroyed && a.refreshing == refreshing ==> r == Done(a)
    ensures !a.destroyed && a.refreshing != refreshing ==>
              && r.thrown.None?
              && GestureReset(r.a)
              && r.a.refreshing == (StartsRefresh(a, view, refreshing, fromTouch) && !ListenerCompletes(a, view, fromTouch, env))
              && r.a.views == a.views && r.a.enabled == a.enabled && r.a.destroyed == a.destroyed
              && (!a.options.refreshMinimize ==> r.a.pendingMinimize == a.pendingMinimize)
    // a change touches only the gesture, the refreshing flag and the minimize callback
    ensures !a.destroyed && a.refreshing != refreshing ==>
              r.a == ResetTouch(a).(refreshing := r.a.refreshing, pendingMinimize := r.a.pendingMinimize)
    // a refresh that starts is announced, shown and has its minimize callback queued
    ensures !a.destroyed && a.refreshing != refreshing && StartsRefresh(a, view, refreshing, fromTouch) ==>
              && RefreshStarted in r.trace && ShowHeader in r.trace
              && (a.options.refreshMinimize ==> PostMinimize(MinimizeDelay(a.options)) in r.trace)
              && (HideHeader in r.trace <==> ListenerCompletes(a, view, fromTouch, env))
              && (a.options.refreshMinimize ==>
                    r.a.pendingMinimize == if ListenerCompletes(a, view, fromTouch, env) then 1 else a.pendingMinimize + 1)
    // any other change ends the refresh: the callback is cancelled and the header hidden
    ensures !a.destroyed && a.refreshing != refreshing && !StartsRefresh(a, view, refreshing, fromTouch) ==>
              && HideHeader in r.trace && RefreshStarted !in r.trace
              && (a.options.refreshMinimize ==> CancelMinimize in r.trace && r.a.pendingMinimize == 0)
    ensures ListenerCalls(r.trace) ==
              (if !a.destroyed && !a.refreshing && refreshing && fromTouch && ListenerFor(a, view).Some? then 1 else 0)
  {
    if a.destroyed then CheckIfDestroyed(a)
    else if a.refreshing == refreshing then Done(a)
    else ChangeRefreshing(ResetTouch(a), view, refreshing, fromTouch, env)
  }

  /** A change of the refreshing flag on a live attacher whose gesture was just reset. */
  function ChangeRefreshing(a: Attacher, view: Option<ViewId>, refreshing: bool, fromTouch: bool, env: Env): (r: Run)
    requires !a.destroyed && a.refreshing != refreshing && a == ResetTouch(a)
    ensures r.thrown.None? && GestureReset(r.a)
    ensures r.a == a.(refreshing := r.a.refreshing, pendingMinimize := r.a.pendingMinimize)
    ensures r.a.refreshing == (StartsRefresh(a, view, refreshing, fromTouch) && !ListenerCompletes(a, view, fromTouch, env))
    ensures !a.options.refreshMinimize ==> r.a.pendingMinimize == a.pendingMinimize
    ensures StartsRefresh(a, view, refreshing, fromTouch) ==>
              && RefreshStarted in r.trace && ShowHeader in r.trace
              && (a.options.refreshMinimize ==> PostMinimize(MinimizeDelay(a.options)) in r.trace)
              && (HideHeader in r.trace <==> ListenerCompletes(a, view, fromTouch, env))
              && (a.options.refreshMinimize ==>
                    r.a.pendingMinimize == if ListenerCompletes(a, view, fromTouch, env) then 1 else a.pendingMinimize + 1)
    ensures !StartsRefresh(a, view, refreshing, fromTouch) ==>
              && HideHeader in r.trace && RefreshStarted !in r.trace
              && (a.options.refreshMinimize ==> CancelMinimize in r.trace && r.a.pendingMinimize == 0)
    ensures ListenerCalls(r.trace) == (if refreshing && fromTouch && ListenerFor(a, view).Some? then 1 else 0)
  {
    if refreshing && CanRefresh(a, fromTouch, ListenerFor(a, view)) then StartRefresh(a, view, fromTouch, env)
    else EndRefresh(a, env)
  }

  /** `reset` on a live attacher, as the end of a refresh. */
  function EndRefresh(a: Attacher, env: Env): (r: Run)
    requires !a.destroyed
    ensures r.thrown.None? && !r.a.refreshing
    ensures r.a == a.(refreshing := false, pendingMinimize := r.a.pendingMinimize)
    ensures HideHeader in r.trace && RefreshStarted !in r.trace
    ensures a.options.refreshMinimize ==> CancelMinimize in r.trace && r.a.pendingMinimize == 0
    ensures !a.options.refreshMinimize ==> r.a.pendingMinimize == a.pendingMinimize
    ensures ListenerCalls(r.trace) == 0
  {
    var r := Reset(a, env);
    assert a.options.refreshMinimize ==> r.trace[0] == CancelMinimize;
    r
  }

  /**
    The handler runs one queued minimize callback. It tells the transformer
    and the header observer and never changes the refreshing flag.
  */
  function RunMinimizeCallback(a: Attacher): (r: Run)
    ensures r.a.refreshing == a.refreshing
    ensures a.pendingMinimize == 0 ==> r == Done(a)
    ensures a.pendingMinimize > 0 ==> r.a == a.(pendingMinimize := a.pendingMinimize - 1)
    ensures a.pendingMinimize > 0 && a.destroyed ==> r.thrown == Some(NullPointer)
    ensures a.pendingMinimize > 0 && !a.destroyed ==>
              && r.thrown.None? && |r.trace| >= 1 && r.trace[0] == RefreshMinimized
              && (HeaderStateChanged(Minimized) in r.trace <==> a.headerListener)
    ensures ListenerCalls(r.trace) == 0
  {
    if a.pendingMinimize == 0 then Done(a)
    else
      var a1 := a.(pendingMinimize := a.pendingMinimize - 1);
      var notify := if a1.headerListener then [HeaderStateChanged(Minimized)] else [];
      Chain(TransformerCall(a1, RefreshMinimized), Run(a1, notify, None))
  }

  /**
    Enables or disables the attacher. Disabling ends any gesture and any
    refresh in progress, the latter without calling a refresh listener;
    enabling only sets the flag.
  */
  function SetEnabled(a: Attacher, enabled: bool, env: Env): (r: Run)
    ensures r.a.enabled == enabled
    ensures enabled ==> r.a.(enabled := a.enabled) == a && r.trace == [] && r.thrown.None?
    ensures !enabled ==> GestureReset(r.a) && !r.a.refreshing && r.a.views == a.views
    ensures !enabled && !a.refreshing ==> r.a == ResetTouch(a).(enabled := false) && r.trace == []
    ensures !enabled ==> r.a == ResetTouch(a).(enabled := false, refreshing := false, pendingMinimize := r.a.pendingMinimize)
    ensures !enabled && a.refreshing && !a.destroyed ==>
              && HideHeader in r.trace
              && (a.options.refreshMinimize ==> CancelMinimize in r.trace && r.a.pendingMinimize == 0)
    ensures !enabled && a.refreshing && a.options.refreshMinimize ==> r.a.pendingMinimize == 0
    ensures r.thrown.Some? ==> r.thrown == Some(NullPointer) && a.destroyed
    ensures ListenerCalls(r.trace) == 0
  {
    var a1 := a.(enabled := enabled);
    if enabled then Done(a1)
    else
      var a2 := ResetTouch(a1);
      if !a2.refreshing then Done(a2)
      else if a2.destroyed then Reset(a2, env)
      else EndRefresh(a2, env)
  }

  /** Ending a refresh just started leaves no minimize callback queued. */
  lemma {:induction false} ResetCancelsStart(a: Attacher, view: Option<ViewId>, fromTouch: bool, env: Env)
    requires a.pendingMinimize == 0 && !a.destroyed
    ensures var started := StartRefresh(a, view, fromTouch, env).a;
            var ended := Reset(started, env).a;
            && !ended.refreshing && ended.pendingMinimize == 0
            && ended == (if ListenerCompletes(a, view, fromTouch, env) then ResetTouch(a) else a).(refreshing := false)
  {
    var started := StartRefresh(a, view, fromTouch, env).a;
    assert started.pendingMinimize == (if a.options.refreshMinimize then 1 else 0);
  }
}

=== FILE: registry.dfy ===
/**
  The refreshable-view registry: which views the attacher observes, each with
  its view delegate and its weakly held refresh listener, and the destroy
  operation that empties it for good.
*/
module Registry {
  import opened State

  /** Thrown by every registry operation once the attacher is destroyed. */
  function CheckIfDestroyed(a: Attacher): (r: Run)
    ensures r.a == a && r.trace == []
    ensures r.thrown.Some? <==> a.destroyed
    ensures r.thrown.Some? ==> r.thrown == Some(IllegalState)
  {
    if a.destroyed then Run(a, [], Some(IllegalState)) else Done(a)
  }

  /** The refresh listener still reachable for a view, if the view is registered. */
  function ListenerFor(a: Attacher, view: Option<ViewId>): (l: Option<ListenerId>)
    ensures l.Some? <==> view.Some? && view.value in a.views && a.views[view.value].listener.Some?
    ensures l.Some? ==> l == a.views[view.value].listener
  {
    if view.Some? && view.value in a.views then a.views[view.value].listener else None
  }

  /**
    Registers `view`. `builtIn` is the delegate the library would pick for the
    view's class when none is given.
  */
  function AddRefreshableView(a: Attacher, view: Option<ViewId>, delegate: Option<DelegateId>,
                              listener: Option<ListenerId>, builtIn: Option<DelegateId>): (r: Run)
    ensures r.trace == []
    ensures r.thrown.Some? ==> r.a == a
    ensures a.destroyed ==> r.thrown == Some(IllegalState)
    ensures !a.destroyed && view.None? ==> r.thrown.None? && r.a == a
    ensures !a.destroyed && view.Some? && listener.None? ==> r.thrown == Some(IllegalArgument)
    ensures !a.destroyed && view.Some? && listener.Some? && delegate.None? && builtIn.None? ==>
              r.thrown == Some(IllegalArgument)
    ensures !a.destroyed && view.Some? && listener.Some? && (delegate.Some? || builtIn.Some?) ==> r.thrown.None?
    ensures r.thrown.None? && view.Some? ==>
              && listener.Some?
              && r.a.views.Keys == a.views.Keys + {view.value}
              && r.a.views[view.value].listener == listener
              && r.a.views[view.value].delegate == (if delegate.Some? then delegate.value else builtIn.value)
              && (forall v :: v in a.views && v != view.value ==> r.a.views[v] == a.views[v])
    ensures r.a.(views := a.views) == a
  {
    if a.destroyed then CheckIfDestroyed(a)
    else if view.None? then Done(a)
    else if listener.None? then Run(a, [], Some(IllegalArgument))
    else if delegate.None? && builtIn.None? then Run(a, [], Some(IllegalArgument))
    else
      var d := if delegate.Some? then delegate.value else builtIn.value;
      Done(Register(a, view.value, ViewParams(d, listener)))
  }

  /** Puts `p` in the registry under `view`, replacing any earlier entry. */
  function Register(a: Attacher, view: ViewId, p: ViewParams): (r: Attacher)
    ensures r.views.Keys == a.views.Keys + {view} && r.views[view] == p
    ensures forall v :: v in a.views && v != view ==> r.views[v] == a.views[v]
    ensures r.(views := a.views) == a
  {
    var views := a.views[view := p];
    assert views.Keys == a.views.Keys + {view};
    a.(views := views)
  }

  /** Unregisters `view`; a view that is not registered is ignored. */
  function RemoveRefreshableView(a: Attacher, view: ViewId): (r: Run)
    ensures r.trace == []
    ensures a.destroyed ==> r.thrown == Some(IllegalState) && r.a == a
    ensures !a.destroyed ==> r.thrown.None?
    ensures !a.destroyed ==> r.a.views.Keys == a.views.Keys - {view}
    ensures forall v :: v in r.a.views ==> v in a.views && r.a.views[v] == a.views[v]
    ensures view !in a.views ==> r.a == a
    ensures r.a.(views := a.views) == a
  {
    if a.destroyed then CheckIfDestroyed(a)
    else if view in a.views then Done(a.(views := a.views - {view}))
    else Done(a)
  }

  /** Unregisters every view. */
  function ClearRefreshableViews(a: Attacher): (r: Run)
    ensures r.trace == []
    ensures a.destroyed ==> r.thrown == Some(IllegalState) && r.a == a
    ensures !a.destroyed ==> r.thrown.None? && r.a.views == map[]
    ensures r.a.(views := a.views) == a
  {
    if a.destroyed then CheckIfDestroyed(a)
    else Done(a.(views := map[]))
  }

  /**
    Releases the registry and the collaborators. A second call does nothing.
    The refreshing flag and any queued minimize callback are left as they are.
  */
  function Destroy(a: Attacher): (r: Run)
    ensures r.thrown.None? && r.trace == []
    ensures r.a.destroyed
    ensures a.destroyed ==> r.a == a
    ensures !a.destroyed ==> r.a.views == map[]
    ensures !a.destroyed ==> !r.a.headerListener
    ensures !a.destroyed ==> r.a == a.(views := map[], headerListener := false, destroyed := true)
    ensures r.a.refreshing == a.refreshing && r.a.pendingMinimize == a.pendingMinimize
    ensures r.a.enabled == a.enabled && r.a.dragging == a.dragging
  {
    if a.destroyed then Done(a)
    else
      var cleared := ClearRefreshableViews(a);
      Done(cleared.a.(headerListener := false, destroyed := true))
  }

  /** The garbage collector clears every weak reference to `listener`. */
  function ListenerGone(a: Attacher, listener: ListenerId): (r: Attacher)
    ensures r.views.Keys == a.views.Keys
    ensures forall v :: v in r.views ==>
              && r.views[v].delegate == a.views[v].delegate
              && r.views[v].listener == (if a.views[v].listener == Some(listener) then None else a.views[v].listener)
    ensures r.(views := a.views) == a
  {
    var views := map v | v in a.views :: Forget(a.views[v], listener);
    assert views.Keys == a.views.Keys;
    a.(views := views)
  }

  function Forget(p: ViewParams, listener: ListenerId): ViewParams
  {
    if p.listener == Some(listener) then p.(listener := None) else p
  }

  /** The garbage collector drops a view nobody else references. */
  function ViewGone(a: Attacher, view: ViewId): (r: Attacher)
    ensures r.views.Keys == a.views.Keys - {view}
    ensures forall v :: v in r.views ==> r.views[v] == a.views[v]
    ensures r.(views := a.views) == a
  {
    a.(views := a.views - {view})
  }

  /** Removing a view just added restores the registry without that view. */
  lemma RemoveUndoesAdd(a: Attacher, view: ViewId, delegate: Option<DelegateId>,
                        listener: Option<ListenerId>, builtIn: Option<DelegateId>)
    requires AddRefreshableView(a, Some(view), delegate, listener, builtIn).thrown.None?
    ensures var added := AddRefreshableView(a, Some(view), delegate, listener, builtIn).a;
            RemoveRefreshableView(added, view).a == a.(views := a.views - {view})
  {
    var added := AddRefreshableView(a, Some(view), delegate, listener, builtIn).a;
    var removed := RemoveRefreshableView(added, view).a;
    assert removed.views == a.views - {view};
  }

  /** Destroying twice is the same as destroying once. */
  lemma DestroyIdempotent(a: Attacher)
    ensures Destroy(Destroy(a).a) == Destroy(a)
  {
  }

  /** After destroy every registry operation fails without changing anything. */
  lemma RegistryClosedAfterDestroy(a: Attacher, view: ViewId, delegate: Option<DelegateId>,
                                   listener: Option<ListenerId>, builtIn: Option<DelegateId>)
    ensures var d := Destroy(a).a;
            && AddRefreshableView(d, Some(view), delegate, listener, builtIn) == Run(d, [], Some(IllegalState))
            && RemoveRefreshableView(d, view) == Run(d, [], Some(IllegalState))
            && ClearRefreshableViews(d) == Run(d, [], Some(IllegalState))
  {
  }
}

=== FILE: scenarios.dfy ===
/**
  Concrete gestures worked through the model: a 400-pixel view with the
  default scroll distance of one half (a 200-pixel threshold) and a touch
  slop of 10.
*/
module Scenarios {
  import opened State
  import opened Machine
  import opened Refresh
  import opened Gesture

  const View: ViewId := 7
  const Listener: ListenerId := 3
  const Delegate: DelegateId := 1

  /** Every collaborator answers yes; the view is 400 pixels high. */
  function Ready(): Env
  {
    Env(true, 400.0, true, true, false)
  }

  /** As `Ready`, but the refresh listener calls setRefreshComplete inside its callback. */
  function Completing(): Env
  {
    Ready().(listenerCompletes := true)
  }

  function Configured(onUp: bool): Options
  {
    DefaultOptions().(refreshOnUp := onUp)
  }

  function At(action: Action, y: real): Input
  {
    Input(Touch(View, Sample(action, 0.0, y)), Ready())
  }

  /** The states the gesture goes through. */
  function Attached(onUp: bool): Attacher
  {
    Attacher(Configured(onUp), 10, 0.0, 0.0, 0.0, 0.0, false, false, false,
             map[View := ViewParams(Delegate, Some(Listener))], true, false, false, 0)
  }

  function Pressed(onUp: bool): Attacher
  {
    Attached(onUp).(handlingFromDown := true, initialY := 100.0)
  }

  function Dragging(onUp: bool): Attacher
  {
    Pressed(onUp).(dragging := true, pullBeginY := 130.0)
  }

  function Pulling(onUp: bool): Attacher
  {
    Dragging(onUp).(lastY := 300.0)
  }

  lemma AttachStep(onUp: bool)
    ensures Step(NewAttacher(Configured(onUp), 10), AddView(Some(View), Some(Delegate), Some(Listener), None), Ready())
            == Done(Attached(onUp))
  {
  }

  lemma DownStep(onUp: bool)
    ensures Step(Attached(onUp), At(Down, 100.0).event, Ready()) == Done(Pressed(onUp))
  {
  }

  lemma DragStartStep(onUp: bool)
    ensures Step(Pressed(onUp), At(Move, 130.0).event, Ready()) == Run(Dragging(onUp), [ShowHeader], None)
  {
  }

  lemma PullStep(onUp: bool)
    ensures Step(Dragging(onUp), At(Move, 300.0).event, Ready()) == Run(Pulling(onUp), [Pulled(0.85)], None)
  {
    assert 300.0 - 130.0 < 400.0 * 0.5;
    assert (300.0 - 130.0) / (400.0 * 0.5) == 0.85;
  }

  lemma ThresholdStep()
    ensures Step(Pulling(false), At(Move, 335.0).event, Ready())
            == Run(ResetTouch(Pulling(false)).(refreshing := true, pendingMinimize := 1, lastY := 335.0),
                   Refreshed(), None)
  {
    var a := Pulling(false);
    TouchRefreshStarts(ResetTouch(a));
    assert SetRefreshingInt(a, Some(View), true, true, Ready()) == StartRefresh(ResetTouch(a), Some(View), true, Ready());
    assert OnPull(a, View, 335.0, Ready()) == SetRefreshingInt(a, Some(View), true, true, Ready());
    assert Step(a, At(Move, 335.0).event, Ready()) == DragMove(a, View, 335.0, Ready());
  }

  lemma ArmStep()
    ensures Step(Pulling(true), At(Move, 335.0).event, Ready())
            == Run(Pulling(true).(lastY := 335.0), [ReleaseToRefresh], None)
  {
  }

  /** A touch refresh on the scenario's view calls the listener and queues the minimize callback. */
  lemma TouchRefreshStarts(a: Attacher)
    requires !a.destroyed && !a.headerListener && a.views == Attached(false).views
    requires a.options.refreshMinimize && a.options.refreshMinimizeDelay == 1000
    ensures StartRefresh(a, Some(View), true, Ready())
            == Run(a.(refreshing := true, pendingMinimize := a.pendingMinimize + 1), Refreshed(), None)
  {
    var notify := RefreshListenerCall(a, Some(View), true);
    assert notify == [ListenerRefreshStarted(Listener, View)];
    var a1 := a.(refreshing := true);
    assert ShowHeaderView(a1, Ready()) == Run(a1, [ShowHeader], None);
    assert QueueMinimize(a1) == Run(a1.(pendingMinimize := a.pendingMinimize + 1), [PostMinimize(1000)], None);
    assert notify + ([RefreshStarted] + ([ShowHeader] + [PostMinimize(1000)])) == Refreshed();
  }

  lemma ReleaseStep()
    ensures Step(Pulling(true).(lastY := 335.0), At(Up, 335.0).event, Ready())
            == Run(ResetTouch(Pulling(true)).(refreshing := true, pendingMinimize := 1),
                   Refreshed(), None)
  {
    var a := Pulling(true).(lastY := 335.0);
    assert ReleaseRefreshes(a, Ready());
    TouchRefreshStarts(ResetTouch(a));
    assert SetRefreshingInt(a, Some(View), true, true, Ready()) == StartRefresh(ResetTouch(a), Some(View), true, Ready());
    assert Step(a, At(Up, 335.0).event, Ready()) == Release(a, View, Ready());
  }

  /**
    A touch refresh whose listener completes it inside the callback: the reset
    comes first, and the start is announced and the callback queued after it.
  */
  lemma TouchRefreshCompletesInside(a: Attacher)
    requires !a.destroyed && !a.headerListener && a.views == Attached(false).views && GestureReset(a)
    requires a.options.refreshMinimize && a.options.refreshMinimizeDelay == 1000
    ensures StartRefresh(a, Some(View), true, Completing())
            == Run(a.(refreshing := false, pendingMinimize := 1), RefreshedAfterCompletion(), None)
  {
    var a1 := a.(refreshing := true);
    var inner := CompleteRefresh(a1, Completing());
    assert inner == Run(a.(refreshing := false, pendingMinimize := 0), [CancelMinimize, HideHeader], None);
    var a2 := inner.a;
    assert ShowHeaderView(a2, Completing()) == Run(a2, [ShowHeader], None);
    assert QueueMinimize(a2) == Run(a2.(pendingMinimize := 1), [PostMinimize(1000)], None);
    assert [ListenerRefreshStarted(Listener, View)] + [CancelMinimize, HideHeader]
           + ([RefreshStarted] + ([ShowHeader] + [PostMinimize(1000)])) == RefreshedAfterCompletion();
  }

  /** The calls made when the listener completes a touch refresh inside its callback. */
  function RefreshedAfterCompletion(): seq<Effect>
  {
    [ListenerRefreshStarted(Listener, View), CancelMinimize, HideHeader, RefreshStarted, ShowHeader, PostMinimize(1000)]
  }

  /**
    The pull past the threshold, with a listener that calls setRefreshComplete
    from inside onRefreshStarted: the refresh it ended is announced and shown
    regardless, the attacher is left not refreshing with the header showing
    and a minimize callback queued, and the invariant no longer holds. When
    the callback runs it minimizes the header of a refresh that is over.
  */
  lemma CompletingListenerBreaksInv()
    ensures var r := Step(Pulling(false), At(Move, 335.0).event, Completing());
            && Inv(Pulling(false))
            && r == Run(Orphaned(), RefreshedAfterCompletion(), None)
            && !Inv(r.a)
            && Step(r.a, MinimizeTimerFires, Ready()) == Run(r.a.(pendingMinimize := 0), [RefreshMinimized], None)
  {
    CompletingStep();
    OrphanedCallbackFires();
  }

  lemma OrphanedCallbackFires()
    ensures !Inv(Orphaned())
    ensures Step(Orphaned(), MinimizeTimerFires, Ready()) == Run(Orphaned().(pendingMinimize := 0), [RefreshMinimized], None)
  {
    var b := Orphaned();
    assert !b.refreshing && b.pendingMinimize == 1 && !b.headerListener && !b.destroyed;
  }

  /** Where the pull ends when the listener completes the refresh inside its callback. */
  function Orphaned(): Attacher
  {
    ResetTouch(Pulling(false)).(pendingMinimize := 1, lastY := 335.0)
  }

  lemma CompletingStep()
    ensures Step(Pulling(false), At(Move, 335.0).event, Completing())
            == Run(Orphaned(), RefreshedAfterCompletion(), None)
  {
    var a := Pulling(false);
    CompletingPull();
    assert Step(a, At(Move, 335.0).event, Completing()) == DragMove(a, View, 335.0, Completing());
  }

  lemma CompletingPull()
    ensures PullMove(Pulling(false), View, 335.0, Completing()) == Run(Orphaned(), RefreshedAfterCompletion(), None)
  {
    var a := Pulling(false);
    TouchRefreshCompletesInside(ResetTouch(a));
    assert SetRefreshingInt(a, Some(View), true, true, Completing())
           == StartRefresh(ResetTouch(a), Some(View), true, Completing());
    assert OnPull(a, View, 335.0, Completing()) == SetRefreshingInt(a, Some(View), true, true, Completing());
  }

  /** Replaying a sequence handles its first event and then the rest. */
  lemma ReplayCons(a: Attacher, i: Input, rest: seq<Input>, r: Run, h: History)
    requires Step(a, i.event, i.env) == r && Replay(r.a, rest) == h
    ensures Replay(a, [i] + rest) == History(h.a, r.trace + h.trace)
  {
    assert ([i] + rest)[0] == i;
    assert ([i] + rest)[1..] == rest;
  }

  /** The calls made by a successful refresh started from a touch. */
  function Refreshed(): seq<Effect>
  {
    [ListenerRefreshStarted(Listener, View), RefreshStarted, ShowHeader, PostMinimize(1000)]
  }

  lemma RefreshedCallsOnce()
    ensures ListenerCalls(Refreshed()) == 1
  {
    var t := Refreshed();
    ListenerCallsAppend([t[0]], t[1..]);
    ListenerCallsSingle(t[0]);
    assert [t[0]] + t[1..] == t;
    ListenerCallsZero(t[1..]);
  }

  lemma DownReplay(onUp: bool, rest: seq<Input>)
    ensures Replay(Attached(onUp), [At(Down, 100.0)] + rest) == Replay(Pressed(onUp), rest)
  {
    DownStep(onUp);
    var h := Replay(Pressed(onUp), rest);
    ReplayCons(Attached(onUp), At(Down, 100.0), rest, Done(Pressed(onUp)), h);
    assert [] + h.trace == h.trace;
  }

  lemma DragStartReplay(onUp: bool, rest: seq<Input>)
    ensures var tail := Replay(Dragging(onUp), rest);
            Replay(Pressed(onUp), [At(Move, 130.0)] + rest) == History(tail.a, [ShowHeader] + tail.trace)
  {
    DragStartStep(onUp);
    ReplayCons(Pressed(onUp), At(Move, 130.0), rest, Run(Dragging(onUp), [ShowHeader], None), Replay(Dragging(onUp), rest));
  }

  lemma PullReplay(onUp: bool, rest: seq<Input>)
    ensures var tail := Replay(Pulling(onUp), rest);
            Replay(Dragging(onUp), [At(Move, 300.0)] + rest) == History(tail.a, [Pulled(0.85)] + tail.trace)
  {
    PullStep(onUp);
    ReplayCons(Dragging(onUp), At(Move, 300.0), rest, Run(Pulling(onUp), [Pulled(0.85)], None), Replay(Pulling(onUp), rest));
  }

  /**
    Down at 100, move to 130 (a drag starts) and to 300 (85% pulled), in
    either mode, followed by any further input.
  */
  lemma PullPrefix(onUp: bool, rest: seq<Input>)
    ensures var tail := Replay(Pulling(onUp), rest);
            Replay(Attached(onUp), [At(Down, 100.0), At(Move, 130.0), At(Move, 300.0)] + rest)
            == History(tail.a, [ShowHeader, Pulled(0.85)] + tail.trace)
  {
    var tail := Replay(Pulling(onUp), rest);
    PullReplay(onUp, rest);
    DragStartReplay(onUp, [At(Move, 300.0)] + rest);
    DownReplay(onUp, [At(Move, 130.0)] + ([At(Move, 300.0)] + rest));
    ConsThree(At(Down, 100.0), At(Move, 130.0), At(Move, 300.0), rest);
    ConsTwo(ShowHeader, Pulled(0.85), tail.trace);
  }

  lemma ConsTwo<T>(x: T, y: T, rest: seq<T>)
    ensures [x] + ([y] + rest) == [x, y] + rest
  {
  }

  lemma ConsThree<T>(x: T, y: T, z: T, rest: seq<T>)
    ensures [x] + ([y] + ([z] + rest)) == [x, y, z] + rest
  {
  }

  /** The final move of the default-mode gesture, replayed. */
  lemma ThresholdReplay()
    ensures Replay(Pulling(false), [At(Move, 335.0)])
            == History(ResetTouch(Pulling(false)).(refreshing := true, pendingMinimize := 1, lastY := 335.0), Refreshed())
  {
    var last := ResetTouch(Pulling(false)).(refreshing := true, pendingMinimize := 1, lastY := 335.0);
    ThresholdStep();
    ReplayCons(Pulling(false), At(Move, 335.0), [], Run(last, Refreshed(), None), History(last, []));
    assert [At(Move, 335.0)] + [] == [At(Move, 335.0)];
    assert Refreshed() + [] == Refreshed();
  }

  lemma ReleaseReplay()
    ensures Replay(Pulling(true).(lastY := 335.0), [At(Up, 335.0)])
            == History(ResetTouch(Pulling(true)).(refreshing := true, pendingMinimize := 1), Refreshed())
  {
    var last := ResetTouch(Pulling(true)).(refreshing := true, pendingMinimize := 1);
    ReleaseStep();
    ReplayCons(Pulling(true).(lastY := 335.0), At(Up, 335.0), [], Run(last, Refreshed(), None), History(last, []));
    assert [At(Up, 335.0)] + [] == [At(Up, 335.0)];
    assert Refreshed() + [] == Refreshed();
  }

  /** The final move and release of the refresh-on-up gesture, replayed. */
  lemma ArmAndReleaseReplay()
    ensures Replay(Pulling(true), [At(Move, 335.0), At(Up, 335.0)])
            == History(ResetTouch(Pulling(true)).(refreshing := true, pendingMinimize := 1), [ReleaseToRefresh] + Refreshed())
  {
    var last := ResetTouch(Pulling(true)).(refreshing := true, pendingMinimize := 1);
    ReleaseReplay();
    ArmStep();
    ReplayCons(Pulling(true), At(Move, 335.0), [At(Up, 335.0)], Run(Pulling(true).(lastY := 335.0), [ReleaseToRefresh], None), History(last, Refreshed()));
    assert [At(Move, 335.0)] + [At(Up, 335.0)] == [At(Move, 335.0), At(Up, 335.0)];
  }

  /**
    Down at 100, move to 130 (a drag starts), to 300 (85% pulled) and to 335
    (past the threshold): the refresh starts once, calling the listener once.
  */
  lemma PullPastThresholdRefreshesOnce()
    ensures var h := Replay(Attached(false), [At(Down, 100.0), At(Move, 130.0), At(Move, 300.0), At(Move, 335.0)]);
            && h.trace == [ShowHeader, Pulled(0.85)] + Refreshed()
            && h.a.refreshing && h.a.pendingMinimize == 1 && !h.a.dragging
            && ListenerCalls(h.trace) == 1
  {
    ThresholdReplay();
    PullPrefix(false, [At(Move, 335.0)]);
    ConcatThreeOne(At(Down, 100.0), At(Move, 130.0), At(Move, 300.0), At(Move, 335.0));
    RefreshedCallsOnce();
    ListenerCallsZero([ShowHeader, Pulled(0.85)]);
    ListenerCallsAppend([ShowHeader, Pulled(0.85)], Refreshed());
  }

  /**
    In refresh-on-up mode the same pull only arms the refresh; the UP that
    follows starts it.
  */
  lemma ReleaseStartsArmedRefresh()
    ensures var h := Replay(Attached(true), [At(Down, 100.0), At(Move, 130.0), At(Move, 300.0), At(Move, 335.0), At(Up, 335.0)]);
            && h.trace == [ShowHeader, Pulled(0.85), ReleaseToRefresh] + Refreshed()
            && h.a.refreshing && GestureReset(h.a)
  {
    ArmAndReleaseReplay();
    PullPrefix(true, [At(Move, 335.0), At(Up, 335.0)]);
    ConcatThreeTwo(At(Down, 100.0), At(Move, 130.0), At(Move, 300.0), At(Move, 335.0), At(Up, 335.0));
    ConcatTwoOne(ShowHeader, Pulled(0.85), ReleaseToRefresh, Refreshed());
  }

  lemma ConcatThreeOne<T>(x: T, y: T, z: T, w: T)
    ensures [x, y, z] + [w] == [x, y, z, w]
  {
  }

  lemma ConcatThreeTwo<T>(x: T, y: T, z: T, v: T, w: T)
    ensures [x, y, z] + [v, w] == [x, y, z, v, w]
  {
  }

  lemma ConcatTwoOne<T>(x: T, y: T, z: T, rest: seq<T>)
    ensures [x, y] + ([z] + rest) == [x, y, z] + rest
  {
  }

  /** A mostly sideways move never starts a drag, however far it goes. */
  lemma SidewaysMoveStartsNoDrag(x: real, y: real)
    requires x >= y - 100.0
    ensures var r := Step(Pressed(false), Touch(View, Sample(Move, x, y)), Ready());
            !r.a.dragging && r.trace == []
  {
  }

  /** Completing the refresh before the minimize delay cancels the callback. */
  lemma CompletionCancelsMinimize(a: Attacher)
    requires Inv(a) && a.refreshing && !a.destroyed && a.options.refreshMinimize
    ensures var done := Step(a, RequestRefreshing(false), Ready());
            && done.trace == [CancelMinimize, HideHeader] + (if a.headerListener then [HeaderStateChanged(Hidden)] else [])
            && Step(done.a, MinimizeTimerFires, Ready()).trace == []
  {
  }

  /** Asking to stop refreshing while idle does nothing at all. */
  lemma StopWhileIdleIsSilent(a: Attacher, env: Env)
    requires !a.refreshing && !a.destroyed
    ensures Step(a, RequestRefreshing(false), env) == Done(a)
  {
  }
}

=== FILE: state.dfy ===
/**
  The data model of a pull-to-refresh attacher: its construction-time options,
  the gesture and refresh state it keeps, the calls it makes on its
  collaborators (recorded as a trace of effects) and the exceptions it throws.
  Every operation of the attacher is a pure function from a state to a `Run`:
  the next state, the effects emitted on the way, and the exception that
  interrupted it, if any.
*/
module State {

  datatype Option<+T> = None | Some(value: T)

  /** Identity handles for the objects the attacher only compares and stores. */
  type ViewId = nat
  type DelegateId = nat
  type ListenerId = nat

  type PosReal = r: real | r > 0.0 witness 1.0

  /** The construction-time options; immutable afterwards. */
  datatype Options = Options(
    refreshScrollDistance: PosReal,  // fraction of the view height to pull before a refresh
    refreshOnUp: bool,               // arm the refresh and start it only when the finger lifts
    refreshMinimizeDelay: int,       // milliseconds before the header is minimized
    refreshMinimize: bool            // whether the header is minimized at all
  )

  function DefaultOptions(): (o: Options)
    ensures o.refreshScrollDistance == 0.5 && !o.refreshOnUp
    ensures o.refreshMinimizeDelay == 1000 && o.refreshMinimize
  {
    Options(0.5, false, 1000, true)
  }

  datatype Action = Down | Move | Up | Cancel

  /** One motion event on a view, in the view's coordinates. */
  datatype Sample = Sample(action: Action, x: real, y: real)

  /**
    What the collaborators answer while one event is handled: the view
    delegate's `isReadyForPull`, the view's current height, whether the
    header transformer's show/hide calls actually changed the visibility, and
    whether a refresh listener called during the event ends the refresh
    (`setRefreshComplete`) from inside its `onRefreshStarted` callback.
  */
  datatype Env = Env(readyForPull: bool, viewHeight: PosReal, showChanged: bool, hideChanged: bool,
                     listenerCompletes: bool)

  /** A registry entry: the view's delegate and the weakly held refresh listener. */
  datatype ViewParams = ViewParams(delegate: DelegateId, listener: Option<ListenerId>)

  datatype HeaderState = Visible | Minimized | Hidden

  /** The calls the attacher makes on its collaborators. */
  datatype Effect =
    | ShowHeader                                             // HeaderTransformer.showHeaderView
    | HideHeader                                             // HeaderTransformer.hideHeaderView
    | Pulled(fraction: real)                                 // HeaderTransformer.onPulled
    | ReleaseToRefresh                                       // HeaderTransformer.onReleaseToRefresh
    | RefreshStarted                                         // HeaderTransformer.onRefreshStarted
    | RefreshMinimized                                       // HeaderTransformer.onRefreshMinimized
    | HeaderStateChanged(state: HeaderState)                 // HeaderViewListener.onStateChanged
    | ListenerRefreshStarted(listener: ListenerId, view: ViewId)  // OnRefreshListener.onRefreshStarted
    | PostMinimize(delayMs: nat)                             // Handler.post (0) or postDelayed
    | CancelMinimize                                         // Handler.removeCallbacks

  datatype Exception = IllegalState | IllegalArgument | NullPointer

  /**
    The attacher's fields. `pendingMinimize` counts the minimize callbacks
    queued on the handler; `headerListener` says whether a HeaderViewListener
    is set; `destroyed` also stands for the header transformer having been
    released.
  */
  datatype Attacher = Attacher(
    options: Options,
    touchSlop: nat,
    initialX: real,
    initialY: real,
    lastY: real,
    pullBeginY: real,
    dragging: bool,
    refreshing: bool,
    handlingFromDown: bool,
    views: map<ViewId, ViewParams>,
    enabled: bool,
    destroyed: bool,
    headerListener: bool,
    pendingMinimize: nat
  )

  /** A new attacher: enabled, idle, no views; coordinates start at zero. */
  function NewAttacher(options: Options, touchSlop: nat): (a: Attacher)
    ensures a.options == options && a.touchSlop == touchSlop
    ensures a.enabled && !a.destroyed && !a.refreshing && !a.dragging && !a.handlingFromDown
    ensures NoCandidate(a) && a.views == map[] && a.pendingMinimize == 0 && !a.headerListener
  {
    Attacher(options, touchSlop, 0.0, 0.0, 0.0, 0.0, false, false, false, map[], true, false, false, 0)
  }

  /** An initial y that is not positive means no DOWN has recorded a drag origin. */
  predicate NoCandidate(a: Attacher)
  {
    a.initialY <= 0.0
  }

  /** The state `resetTouch` leaves behind. */
  predicate GestureReset(a: Attacher)
  {
    && !a.dragging && !a.handlingFromDown
    && a.initialY == -1.0 && a.lastY == -1.0 && a.pullBeginY == -1.0
  }

  /** The fields that are not part of the per-gesture touch state agree. */
  predicate SameOutsideGesture(a: Attacher, b: Attacher)
  {
    && a.options == b.options && a.touchSlop == b.touchSlop
    && a.refreshing == b.refreshing && a.views == b.views && a.enabled == b.enabled
    && a.destroyed == b.destroyed && a.headerListener == b.headerListener
    && a.pendingMinimize == b.pendingMinimize
  }

  /** Ends any gesture in progress: no drag, no candidate origin. */
  function ResetTouch(a: Attacher): (r: Attacher)
    ensures GestureReset(r) && NoCandidate(r)
    ensures SameOutsideGesture(a, r) && r.initialX == a.initialX
  {
    a.(dragging := false, handlingFromDown := false, initialY := -1.0, lastY := -1.0, pullBeginY := -1.0)
  }

  /** The outcome of running one operation. */
  datatype Run = Run(a: Attacher, trace: seq<Effect>, thrown: Option<Exception>)

  function Done(a: Attacher): (r: Run)
    ensures r.a == a && r.trace == [] && r.thrown.None?
  {
    Run(a, [], None)
  }

  /** The number of OnRefreshListener calls in a trace. */
  function ListenerCalls(t: seq<Effect>): nat
  {
    if t == [] then 0
    else (if t[0].ListenerRefreshStarted? then 1 else 0) + ListenerCalls(t[1..])
  }

  lemma {:induction false} ListenerCallsAppend(s: seq<Effect>, t: seq<Effect>)
    ensures ListenerCalls(s + t) == ListenerCalls(s) + ListenerCalls(t)
    decreases |s|
  {
    if s == [] {
      assert s + t == t;
    } else {
      assert (s + t)[1..] == s[1..] + t;
      ListenerCallsAppend(s[1..], t);
    }
  }

  lemma ListenerCallsSingle(e: Effect)
    ensures ListenerCalls([e]) == (if e.ListenerRefreshStarted? then 1 else 0)
  {
    assert [e][1..] == [];
  }

  lemma {:induction false} ListenerCallsZero(t: seq<Effect>)
    ensures ListenerCalls(t) == 0 <==> forall i :: 0 <= i < |t| ==> !t[i].ListenerRefreshStarted?
    decreases |t|
  {
    if t != [] {
      ListenerCallsZero(t[1..]);
      assert forall i :: 1 <= i < |t| ==> t[i] == t[1..][i - 1];
    }
  }

  /**
    Runs `next` after `first` unless `first` threw: the exception then
    propagates and `next` never happens. `next` is computed by the caller
    from `first.a`.
  */
  function Chain(first: Run, next: Run): (r: Run)
    ensures first.thrown.Some? ==> r == first
    ensures first.thrown.None? ==> r.a == next.a && r.trace == first.trace + next.trace && r.thrown == next.thrown
    ensures ListenerCalls(r.trace) == ListenerCalls(first.trace) + (if first.thrown.None? then ListenerCalls(next.trace) else 0)
  {
    if first.thrown.Some? then first
    else
      ListenerCallsAppend(first.trace, next.trace);
      Run(next.a, first.trace + next.trace, next.thrown)
  }
}
